=== FILE: README.md ===
# HD2D DevKit map editor — Dafny model of the editing core

This project models the state logic of the HD2D DevKit tile-map editor, with
the Qt scene graph, PIL and JSON abstracted away:

- **Entity registry** (`Entities`, entity_system.dfy). Entities have a name, a
  position, a type, named components and a property bag. New entities default
  to visible, not collidable, layer 1. The registry is a dictionary from id to
  entity that keeps insertion order, as a Python dict does. `create`, `get`,
  `remove`, `get_all` and `serialize` are modelled, plus the JSON dictionary
  of each entity. The registry stores the very entity object `create`
  returns, so `add_component` on that object shows in the registry
  (`AddComponentTo`).
- **Tile manager** (`Tiles`, tile_manager.dfy). `load_tileset` walks a
  `W`×`H` image in steps of the tile size. Each tile is a tile-sized crop keyed
  `name_x_y`, and the tileset is recorded under its name. `get_tile` looks a
  tile up again. Python's `range` is modelled in `Ranges` (ranges.dfy) and
  `str(int)` in `Decimal` (decimal.dfy), so the key scheme and the walk are
  exact.
- **Project store** (`Projects`, project_manager.dfy). It creates, loads and
  saves project records. The filesystem is a map from path to record, and the
  default path is `projects_dir / "{name}.h2d"`.
- **Map viewport** (`Viewport`, map_viewport.dfy). The viewport state covers
  the tool (paint, erase, select), the selected tile, the current layer, the
  loaded project, the layer groups, the grid overlay, the zoom level and the
  painted tiles. A painted tile is a rect item recorded with its cell, z value
  and layer group. `load_project`, `draw_grid`, `toggle_grid`, mouse
  press/drag dispatch, `place_tile`, `erase_tile`, the wheel zoom clamp and the
  two setters are modelled. `Step` runs them as a state machine over events.

Python exceptions that the modelled code can raise are returned as
`Failure(...)`:

- `range(..., 0)` for a zero tile or grid size;
- `// 0` in the mouse handlers;
- opening a missing project file;
- the missing `Qt.ItemSelectionMode.ContainsShape` member named by
  `erase_tile`, raised as AttributeError (see Findings).

The tile walk `range(0, W, T)` crops past the image edge, so partial edge
tiles are kept and a `W`×`H` image gives `ceil(W/T) * ceil(H/T)` tiles.

## Model

| member | source | states |
|---|---|---|
| Entities.NewEntity | build/release/HD2D_DevKit/core/entity_system.py:5-16 | a new entity has the given id, name, position and type, no components, and properties visible = true, collidable = false, layer = 1 |
| Entities.AddComponent | build/release/HD2D_DevKit/core/entity_system.py:18-19 | the component is stored under its own name and replaces any component of that name; every other component and field is unchanged; the count grows by one exactly when the name was new |
| Entities.ToDict | build/release/HD2D_DevKit/core/entity_system.py:21-38 | an entity serialises to a dictionary with exactly the keys id, name, x, y, type, properties, components; `id` is the entity's id; `components` maps each component name to that component's data |
| Entities.ToDictRoundTrip | build/release/HD2D_DevKit/core/entity_system.py:21-30 | serialisation loses nothing: the dictionary of an entity whose components sit under their own names reads back as that entity |
| Entities.EmptyRegistryValid | build/release/HD2D_DevKit/core/entity_system.py:41-42 | a new registry is empty and satisfies the registry invariant |
| Entities.CreateEntity | build/release/HD2D_DevKit/core/entity_system.py:44-47 | the new entity is returned and stored under its id; every other id keeps its entity; a fresh id is appended to the insertion order and grows the registry by one; an existing id is overwritten in place; the registry invariant is kept |
| Entities.CreateEntityDefault | build/release/HD2D_DevKit/core/entity_system.py:44 | leaving out the type creates a "sprite", otherwise as create |
| Entities.AddComponentTo | build/release/HD2D_DevKit/core/entity_system.py:18-19 | adding a component to an entity the registry holds (the object create returned) changes that stored entity as add_component does; ids, order and every other entity are unchanged; the registry invariant is kept |
| Entities.GetEntity | build/release/HD2D_DevKit/core/entity_system.py:49-50 | returns the stored entity exactly when the id is present, None otherwise |
| Entities.CreateThenGet | build/release/HD2D_DevKit/core/entity_system.py:44-50 | after create, get of the new id returns the new entity and get of any other id answers as before |
| Entities.RemoveEntity | build/release/HD2D_DevKit/core/entity_system.py:52-54 | exactly that id is deleted and the rest keep their entities; the remaining ids are the old insertion order with that id dropped; removing an absent id leaves the registry unchanged |
| Entities.RemoveKeepsValid | build/release/HD2D_DevKit/core/entity_system.py:52-54 | remove keeps the registry invariant (ids listed once each, in order, each under its own id) |
| Entities.RemoveThenGet | build/release/HD2D_DevKit/core/entity_system.py:49-54 | after remove, get of that id is None and get of any other id answers as before |
| Entities.CreateThenRemove | build/release/HD2D_DevKit/core/entity_system.py:44-54 | creating under a fresh id and removing it again restores the registry exactly, insertion order included |
| Entities.WithoutAt | build/release/HD2D_DevKit/core/entity_system.py:52-54 | dropping an id that sits at position i of a duplicate-free order leaves exactly the ids before and after it, in order |
| Entities.RemoveKeepsOrder | build/release/HD2D_DevKit/core/entity_system.py:52-54 | removing the id at position i of the insertion order leaves the other ids in their old order |
| Entities.RemoveKeepsListing | build/release/HD2D_DevKit/core/entity_system.py:52-57 | after removing the entity at position i, get_all_entities gives the old list without entry i |
| Entities.DistinctCardinality | build/release/HD2D_DevKit/core/entity_system.py:56-57 | a list of distinct ids has as many elements as its set of ids, which is why the entity list is as long as the dictionary |
| Entities.GetAllEntities | build/release/HD2D_DevKit/core/entity_system.py:56-57 | the list holds one entry per stored entity (its length is the number of stored entities), in insertion order, and every stored entity appears in it |
| Entities.Serialize | build/release/HD2D_DevKit/core/entity_system.py:59-60 | one dictionary per stored entity in insertion order; each record's `id` is the key it is stored under, so the ids are pairwise distinct; each record reads back as the stored entity |
| Entities.SerializeShowsComponent | build/release/HD2D_DevKit/core/entity_system.py:18-30 | a component added to a stored entity appears, under its name and with its data, in that entity's serialised dictionary |
| Decimal.NatStr | build/release/HD2D_DevKit/core/tile_manager.py:19 | a natural number prints as a non-empty run of digits without a leading zero, one digit exactly when it is below 10 |
| Decimal.IntStr | build/release/HD2D_DevKit/core/tile_manager.py:19 | an integer prints as non-empty text of digits and a minus sign; ParseIntStr reads it back |
| Decimal.ParseIntStr | build/release/HD2D_DevKit/core/tile_manager.py:19 | the decimal text of every integer, as an f-string prints it, reads back as that integer |
| Decimal.IntStrInjective | build/release/HD2D_DevKit/core/tile_manager.py:19 | two integers print alike exactly when they are equal |
| Ranges.Range | build/release/HD2D_DevKit/core/tile_manager.py:17-18 | with a positive step the numbers lie in [start, stop) and strictly increase; with a negative step they lie in (stop, start] |
| Ranges.RangeLength | build/release/HD2D_DevKit/core/tile_manager.py:17-18 | with a positive step, range yields ceil((stop - start) / step) numbers when start < stop, and none otherwise |
| Ranges.RangeMember | build/release/HD2D_DevKit/core/tile_manager.py:17-18 | with a positive step, x is yielded exactly when start <= x < stop and x is a whole number of steps from start |
| Ranges.RangeIndex | build/release/HD2D_DevKit/ui/map_viewport.py:59-66 | the i-th number of a range with a positive step is start + i * step |
| Tiles.Key | build/release/HD2D_DevKit/core/tile_manager.py:19 | a tile key is the tileset name, an underscore, then only digits, minus signs and underscores (the two coordinates); KeyRoundTrip splits it back |
| Tiles.KeyRoundTrip | build/release/HD2D_DevKit/core/tile_manager.py:19 | the key `name_x_y` splits back at its last two underscores into the name and origin it was built from |
| Tiles.KeyInjective | build/release/HD2D_DevKit/core/tile_manager.py:19 | two keys are equal exactly when name, x and y are equal, so distinct origins never share a key, even across tilesets |
| Tiles.OriginInRanges | build/release/HD2D_DevKit/core/tile_manager.py:17-18 | the walk visits (x, y) exactly when x and y are multiples of the tile size with 0 <= x < W and 0 <= y < H |
| Tiles.GridCount | build/release/HD2D_DevKit/core/tile_manager.py:17-21 | the walk visits ceil(W/T) * ceil(H/T) origins |
| Tiles.SliceRow | build/release/HD2D_DevKit/core/tile_manager.py:18-21 | one row adds the crop at (x, y) for every x of the row, under that origin's key, keeps earlier tiles, and grows the map by the row length |
| Tiles.SliceGrid | build/release/HD2D_DevKit/core/tile_manager.py:17-21 | the nested walk holds a key for exactly the visited origins, each mapping to the tile-sized crop there, and no other keys; the map's size is the product of the two walk lengths |
| Tiles.SliceTiles | build/release/HD2D_DevKit/core/tile_manager.py:14-21 | a zero tile size raises; otherwise `name_x_y` is present exactly for the origins of the W×H grid, with the crop (x, y, x+T, y+T); there are ceil(W/T) * ceil(H/T) tiles; every key is such an origin key; a negative size yields none |
| Tiles.SlicedIsWellSliced | build/release/HD2D_DevKit/core/tile_manager.py:17-27 | a freshly sliced tileset keeps every tile under its own origin's key, at a multiple of the tile size, as the tile-sized crop there |
| Tiles.GetTile | build/release/HD2D_DevKit/core/tile_manager.py:30-33 | a tileset that was never loaded yields None; any tile found in a well-sliced manager is the tile-sized crop at (x, y), with x and y non-negative multiples of the tile size |
| Tiles.LoadedLookup | build/release/HD2D_DevKit/core/tile_manager.py:23-33 | after recording a sliced tileset, get_tile on it returns a tile exactly at the grid's origins and None elsewhere, and get_tile on other tilesets answers as before |
| Tiles.LoadTileset | build/release/HD2D_DevKit/core/tile_manager.py:12-28 | a zero tile size raises; otherwise path, tile size and tiles are recorded under the name, replacing any earlier entry and leaving other tilesets alone; the returned tiles number ceil(W/T) * ceil(H/T); get_tile then finds a tile iff (x, y) is a generated origin; the manager invariant is kept |
| Tiles.Init | build/release/HD2D_DevKit/core/tile_manager.py:6-8 | a new manager holds no tileset, satisfies the manager invariant, and every get_tile answers None |
| Projects.Init | build/release/HD2D_DevKit/core/project_manager.py:6-9 | the manager starts with no current project, projects directory assets/projects, and the existing files |
| Projects.DefaultPath | build/release/HD2D_DevKit/core/project_manager.py:21 | the default path ends in `.h2d` and, for a name not starting with `/`, is `projects_dir/name.h2d` |
| Projects.NewProject | build/release/HD2D_DevKit/core/project_manager.py:11-19 | the new record carries name, width, height and tile size, with empty layers and entities |
| Projects.CreateProject | build/release/HD2D_DevKit/core/project_manager.py:11-26 | the new record is written at the default path for its name and becomes the current project; every other file is unchanged |
| Projects.CreateProjectDefault | build/release/HD2D_DevKit/core/project_manager.py:11 | leaving out the tile size creates the project with tile size 32 |
| Projects.LoadProject | build/release/HD2D_DevKit/core/project_manager.py:28-31 | a stored path yields its record, which becomes current, and nothing else changes; a missing path raises FileNotFound and leaves the manager as it was |
| Projects.SaveTarget | build/release/HD2D_DevKit/core/project_manager.py:34 | a given non-empty path is used as is; a missing or empty path falls back to the default path for the project's name |
| Projects.SaveProject | build/release/HD2D_DevKit/core/project_manager.py:33-36 | the record is written at its target, every other file is unchanged, and the current project is not touched |
| Projects.CreateThenLoad | build/release/HD2D_DevKit/core/project_manager.py:21-31 | create followed by load of the default path returns the created record and the same manager state |
| Projects.SaveThenLoad | build/release/HD2D_DevKit/core/project_manager.py:28-36 | save followed by load of the target path returns the saved record, which becomes current |
| Projects.SaveCurrentThenLoad | build/release/HD2D_DevKit/ui/main_window.py:159-162 | the editor's Save command (save current project, no path) followed by load of the default path returns the current project and changes nothing |
| Projects.SaveIsolated | build/release/HD2D_DevKit/core/project_manager.py:33-36 | a save to one path does not change what a load of any other path returns or whether it raises |
| Viewport.Init | build/release/HD2D_DevKit/ui/map_viewport.py:10-40 | a new viewport has grid size 32, grid shown, layer 0, paint tool, no selected tile, no project, zoom 1.0, no tiles and no grid lines |
| Viewport.InitValid | build/release/HD2D_DevKit/ui/map_viewport.py:10-40 | the initial viewport satisfies the viewport invariant |
| Viewport.FloorDiv | build/release/HD2D_DevKit/ui/map_viewport.py:106-107 | Python float floor division `s // g` by a non-zero whole g: q·g <= s < q·g + g for g > 0, and q·g + g < s <= q·g for g < 0 |
| Viewport.CellAt | build/release/HD2D_DevKit/ui/map_viewport.py:105-107 | the pointer's cell is the one whose g×g square holds the scene point, for either sign of g |
| Viewport.Without | build/release/HD2D_DevKit/ui/map_viewport.py:164-174 | removing the rect items inside a cell leaves none there, keeps exactly the items of other cells, and leaves every other cell's items unchanged and in order |
| Viewport.EraseTile | build/release/HD2D_DevKit/ui/map_viewport.py:164-174 | the intended erase (the docstring's "Remove tile at position", line 165): afterwards the cell holds no tile on any layer; other cells and all other state are unchanged; at most one tile per cell is preserved |
| Viewport.EraseTileAsWritten | build/release/HD2D_DevKit/ui/map_viewport.py:164-171 | erase as written always raises AttributeError, naming a selection mode that is not a member of Qt's ItemSelectionMode |
| Viewport.AddRect | build/release/HD2D_DevKit/ui/map_viewport.py:151-162 | adding the rect item puts one more tile, on the current layer and in that layer's group if it exists, at the end of the cell's items; no other cell changes; one tile_placed signal is emitted; nothing else changes |
| Viewport.PlaceTile | build/release/HD2D_DevKit/ui/map_viewport.py:143-162 | outside the map nothing changes and nothing is emitted; inside (the intended erase), the cell holds exactly one rect item, with the given id, z equal to the current layer and that layer's group if it exists, and one tile_placed signal is emitted; other cells are untouched |
| Viewport.PlaceTileAsWritten | build/release/HD2D_DevKit/ui/map_viewport.py:143-149 | place_tile as written succeeds exactly outside the map, leaving the viewport unchanged; inside it raises the AttributeError of erase_tile |
| Viewport.PaintTwice | build/release/HD2D_DevKit/ui/map_viewport.py:143-162 | painting the same cell twice leaves the same tiles as painting it once: still exactly one tile there |
| Viewport.GridLines | build/release/HD2D_DevKit/ui/map_viewport.py:58-66 | one vertical line per value of the x range, spanning the full height, then one horizontal line per value of the y range, spanning the full width |
| Viewport.GridLinesCount | build/release/HD2D_DevKit/ui/map_viewport.py:58-66 | for a positive grid size over a W×H map the two loops draw (W+1)+(H+1) lines |
| Viewport.GridLinesShape | build/release/HD2D_DevKit/ui/map_viewport.py:55-66 | a W×H map with cells of side g gets W+1 vertical lines at x = i*g spanning the height, then H+1 horizontal lines at y = j*g spanning the width |
| Viewport.DrawGrid | build/release/HD2D_DevKit/ui/map_viewport.py:42-66 | a hidden grid or no project gives no lines; a shown grid over a project gives exactly the vertical then horizontal lines of the two range loops, (width+1)+(height+1) of them; a zero grid size raises; nothing but the lines changes |
| Viewport.DrawGridIdempotent | build/release/HD2D_DevKit/ui/map_viewport.py:42-66 | drawing the grid again yields the same lines |
| Viewport.ToggleGrid | build/release/HD2D_DevKit/ui/map_viewport.py:94-97 | toggling flips visibility and redraws: hiding always succeeds and leaves no lines; with no project loaded there are no lines either; showing over a loaded project draws exactly the GridLines of the map, and raises only on a zero grid size; nothing else changes |
| Viewport.ToggleTwice | build/release/HD2D_DevKit/ui/map_viewport.py:94-97 | toggling twice restores the viewport exactly, grid lines included, when its lines were up to date |
| Viewport.LoadProject | build/release/HD2D_DevKit/ui/map_viewport.py:68-92 | the grid size becomes the project's tile size (32 when absent); all tiles are cleared; there is one layer group per layer entry, with z equal to its index; the grid is redrawn up to date; the scene is width·g × height·g; tool, selection, layer, zoom and visibility are kept; a zero tile size with the grid shown raises |
| Viewport.Press | build/release/HD2D_DevKit/ui/map_viewport.py:99-114 | with no project or another button, nothing changes; a zero grid size raises; select does nothing; paint without a (non-empty) selected tile does nothing; a paint click inside the map leaves exactly the selected tile, on the current layer, in the pointer cell and emits tile_placed; an erase click is exactly erase_tile on the pointer cell and emits nothing; other cells are untouched; besides the tiles and the tile_placed signals nothing changes |
| Viewport.Move | build/release/HD2D_DevKit/ui/map_viewport.py:116-129 | a drag with only the left button held paints the pointer cell like a press, leaving exactly the selected tile there; with any tool but paint it changes nothing; it never removes a tile outside the pointer cell; besides the tiles and the tile_placed signals nothing changes |
| Viewport.PressAsWritten | build/release/HD2D_DevKit/ui/map_viewport.py:99-114 | the click handler as written raises exactly on a zero grid size (ZeroDivisionError), on every erase click and on every paint click inside the map (both AttributeError for the missing selection mode), and otherwise changes nothing |
| Viewport.MoveAsWritten | build/release/HD2D_DevKit/ui/map_viewport.py:116-129 | the drag handler as written raises exactly on a zero grid size (ZeroDivisionError) and on every painting drag inside the map (AttributeError for the missing selection mode), and otherwise changes nothing |
| Viewport.ClickAsWrittenRaises | build/release/HD2D_DevKit/ui/map_viewport.py:109-112 | an erase click, or a paint click inside the map, raises as written and succeeds as intended, clearing or painting the pointer cell |
| Viewport.FirstPaintAsWritten | build/release/HD2D_DevKit/ui/map_viewport.py:143-171 | a 1×1 project with 32-pixel tiles, a selected tile and a click at (10, 10): AttributeError as written, the tile in cell (0, 0) as intended |
| Viewport.Wheel | build/release/HD2D_DevKit/ui/map_viewport.py:131-141 | after any wheel event 0.1 <= zoom <= 5.0; zooming in never lowers and zooming out never raises an in-range zoom; a scaled zoom already in range is kept as is, and one past a bound becomes that bound; nothing else changes |
| Viewport.WheelsBounded | build/release/HD2D_DevKit/ui/map_viewport.py:131-141 | any run of wheel notches keeps the zoom within [0.1, 5.0] |
| Viewport.ZoomInMonotone | build/release/HD2D_DevKit/ui/map_viewport.py:131-141 | repeated zooming in never lowers the zoom and never passes 5.0 |
| Viewport.SetCurrentLayer | build/release/HD2D_DevKit/ui/map_viewport.py:176-178 | only the current layer changes |
| Viewport.SetSelectedTile | build/release/HD2D_DevKit/ui/map_viewport.py:180-182 | only the selected tile changes |
| Viewport.SelectThenPaint | build/release/HD2D_DevKit/ui/map_viewport.py:109-112 | after selecting a non-empty tile and a layer, a left click inside the map with the paint tool leaves exactly that tile, on that layer, in the clicked cell |
| Viewport.PlaceKeepsValid | build/release/HD2D_DevKit/ui/map_viewport.py:143-162 | painting keeps the viewport invariant |
| Viewport.StepKeepsValid | build/release/HD2D_DevKit/ui/map_viewport.py:68-182 | every event that does not raise keeps the viewport invariant: at most one tile per cell, every tile inside the loaded map and in an existing layer group, grid lines up to date, zoom within its clamp |

## Left out

- Qt rendering is not modelled. This covers pens and brushes, `fitInView`, the
  `resetTransform`/`scale` view transform, item-group rendering, the base-class
  `super()` event handling, and every signal other than `tile_placed`, which is
  recorded as a log.
- The mapping from view to scene (`mapToScene`) is not modelled. Mouse handlers
  take the scene coordinates as exact reals.
- Viewport.FloorDiv: floating-point rounding of `s // g` is not modelled, and
  neither is a project file whose tile size is a JSON float rather than an
  integer.
- The intended `erase_tile` would add a stray 1×1 rect item on each loop
  iteration (map_viewport.py:173). This is a scene-graph side effect and is not
  modelled; it is not a painted tile.
- Viewport.EraseTile, Viewport.PlaceTile, Viewport.Press and Viewport.Move
  model the intended erase, as the comment at line 148 and the docstring at
  line 165 of map_viewport.py state it: the tile at the
  position is removed. No selection mode is chosen: a corrected
  `scene.items` call also needs the sort order argument, and Qt's
  `ContainsItemShape` leaves out a rect that only shares the cell's outline.
  As written, `erase_tile` raises. EraseTileAsWritten, PlaceTileAsWritten,
  PressAsWritten and MoveAsWritten model that (see Findings).
- Viewport.PaintTwice: states the intended paint. As written, painting inside
  the map raises (PlaceTileAsWritten).
- Viewport.SelectThenPaint: states the intended paint. As written, the click
  raises (ClickAsWrittenRaises).
- Viewport.PlaceKeepsValid and Viewport.StepKeepsValid: state the invariant
  of the intended editor. As written, the mouse handlers never change the map
  (PressAsWritten, MoveAsWritten), so the invariant holds there too.
- Tiles.LoadTileset: returns the tiles as a map. The dictionary's insertion
  order, row by row from the top and left to right within a row, is not
  modelled. The tile palette shows tiles in that order, and the palette is
  outside this model.
- The `silent` parameter of `erase_tile` is unused by the source and is
  dropped.
- Viewport.SetCurrentLayer: takes a non-negative layer index. Python's negative
  indexing of `layers` in `place_tile`, and the IndexError below `-len(layers)`,
  are not modelled. The only emitter of layer indices, the layer panel, sends
  list rows, which are never negative.
- Viewport.EraseTile: assumes a positive grid size. For a project file with a
  negative tile size, Qt's containment test over a rectangle of negative size
  is not modelled.
- `wheelEvent` uses only the sign of the wheel delta, as the source does. Zoom
  is a `real`, so floating-point rounding of the 1.15 step is not modelled.
- Image decoding, cropping pixels and `ImageQt` conversion (PIL) are not
  modelled. An image is its width and height, and a tile is its crop box.
  Failures to open the image file are not modelled.
- The `tiles` attribute and `assets_dir` of the tile manager are not modelled.
  `tiles` is never read, and `assets_dir` only creates a directory.
- JSON encoding and decoding are not modelled: a file holds the record itself.
  A file with malformed JSON or without `width`/`height` (KeyError later) is not
  modelled.
- Write failures, directory creation and path normalisation by `pathlib` are
  not modelled. Paths compare as plain strings.
- Entity ids come from `uuid4()[:8]`, which is random and not guaranteed
  unique. The id is a parameter, and a colliding id overwrites the stored
  entity in place, as the dictionary assignment does.
- Entity positions serialise as JSON floats. Python would write an `int` if
  one were passed.
- The UI panels (tile palette, layer panel, properties panel, toolbar, main
  window) are widget wiring and are not modelled. Undo/redo is not wired in
  the source. The build scripts and `main.py` are process and packaging code.

## Findings

| source | as written | input that shows it | evidently intended | confidence | as-written member | corrected member |
|---|---|---|---|---|---|---|
| build/release/HD2D_DevKit/ui/map_viewport.py:169 | `erase_tile` passes `Qt.ItemSelectionMode.ContainsShape`. Qt's ItemSelectionMode has no such member (its members are ContainsItemShape, IntersectsItemShape, ContainsItemBoundingRect, IntersectsItemBoundingRect), so every erase raises AttributeError. Through `place_tile` (line 149), every paint inside the map raises too. | load a 1×1 project with tile size 32, select a tile, left-click scene point (10, 10) with the paint tool | what the comment at line 148 and the docstring at line 165 say: remove the tile at the position, then add the new one; the model states that intent without choosing a Qt selection mode | medium: not executed; rests on Qt's documented enum | Viewport.PressAsWritten, Viewport.FirstPaintAsWritten | Viewport.Press, Viewport.ClickAsWrittenRaises |

=== FILE: decimal.dfy ===
/** Python's `str(n)` for integers, as used in f-strings, and its inverse. */
module Decimal {
  import opened Results

  predicate IsDigit(c: char) {
    '0' <= c <= '9'
  }

  predicate AllDigits(s: string) {
    forall i :: 0 <= i < |s| ==> IsDigit(s[i])
  }

  function DigitChar(d: nat): (c: char)
    requires d < 10
    ensures IsDigit(c)
  {
    "0123456789"[d]
  }

  function DigitValue(c: char): nat
    requires IsDigit(c)
  {
    (c as int) - ('0' as int)
  }

  /** Decimal digits of a natural number, most significant first, no leading zero. */
  function NatStr(n: nat): (s: string)
    ensures |s| > 0 && AllDigits(s)
    ensures |s| > 1 ==> s[0] != '0'
    ensures n < 10 <==> |s| == 1
    decreases n
  {
    if n < 10 then [DigitChar(n)] else NatStr(n / 10) + [DigitChar(n % 10)]
  }

  /** `str(i)`: a minus sign before the digits of a negative number. */
  function IntStr(i: int): (s: string)
    ensures |s| > 0
    ensures forall k :: 0 <= k < |s| ==> s[k] == '-' || IsDigit(s[k])
  {
    if i < 0 then "-" + NatStr(-i) else NatStr(i)
  }

  /** The number a non-empty digit string denotes. */
  function DigitsValue(s: string): nat
    requires |s| > 0 && AllDigits(s)
    decreases |s|
  {
    if |s| == 1 then DigitValue(s[0])
    else DigitsValue(s[..|s| - 1]) * 10 + DigitValue(s[|s| - 1])
  }

  /** Reads an optionally signed decimal integer back; None for anything else. */
  function ParseInt(s: string): Option<int> {
    if |s| > 1 && s[0] == '-' && AllDigits(s[1..]) then Some(-(DigitsValue(s[1..]) as int))
    else if |s| > 0 && AllDigits(s) then Some(DigitsValue(s))
    else None
  }

  lemma {:induction false} DigitsValueOfNatStr(n: nat)
    ensures DigitsValue(NatStr(n)) == n
    decreases n
  {
    if n >= 10 {
      var s := NatStr(n);
      assert s[..|s| - 1] == NatStr(n / 10);
      DigitsValueOfNatStr(n / 10);
    }
  }

  /** Printing then parsing an integer gives it back, so `str` is injective. */
  lemma ParseIntStr(i: int)
    ensures ParseInt(IntStr(i)) == Some(i)
  {
    if i < 0 {
      var s := IntStr(i);
      assert s[1..] == NatStr(-i);
      DigitsValueOfNatStr(-i);
    } else {
      DigitsValueOfNatStr(i);
    }
  }

  lemma IntStrInjective(a: int, b: int)
    ensures IntStr(a) == IntStr(b) <==> a == b
  {
    ParseIntStr(a);
    ParseIntStr(b);
  }
}

=== FILE: entity_system.dfy ===
/** The entity registry: entities with a property bag and named components,
    held in a dictionary from id to entity that keeps insertion order (as a
    Python dict does), and serialised to JSON dictionaries. */
module Entities {
  import opened Results
  import Json

  datatype Properties = Properties(visible: bool, collidable: bool, layer: int)

  /** A named blob of component data; `to_dict` of a component is its data. */
  datatype Component = Component(name: string, data: map<string, Json.Value>)

  datatype Entity = Entity(
    id: string,
    name: string,
    x: real,
    y: real,
    kind: string,
    components: map<string, Component>,
    properties: Properties)

  const DefaultKind: string := "sprite"

  /** Every component is stored under its own name. */
  predicate WellKeyed(e: Entity) {
    forall n :: n in e.components ==> e.components[n].name == n
  }

  /** A fresh entity: no components, visible, not collidable, on layer 1.
      The id, random in the editor, is a parameter here. */
  function NewEntity(id: string, name: string, x: real, y: real, kind: string): (e: Entity)
    ensures e.id == id && e.name == name && e.x == x && e.y == y && e.kind == kind
    ensures |e.components| == 0
    ensures e.properties.visible && !e.properties.collidable && e.properties.layer == 1
    ensures WellKeyed(e)
  {
    Entity(id, name, x, y, kind, map[], Properties(visible := true, collidable := false, layer := 1))
  }

  /** Stores a component under its name, replacing one of the same name. */
  function AddComponent(e: Entity, c: Component): (r: Entity)
    ensures c.name in r.components && r.components[c.name] == c
    ensures forall n :: n != c.name ==>
              (n in r.components <==> n in e.components) &&
              (n in e.components ==> r.components[n] == e.components[n])
    ensures |r.components| == if c.name in e.components then |e.components| else |e.components| + 1
    ensures r.(components := e.components) == e
    ensures WellKeyed(e) ==> WellKeyed(r)
  {
    e.(components := e.components[c.name := c])
  }

  function PropertiesToDict(p: Properties): Json.Value {
    Json.Object(map["visible" := Json.Bool(p.visible),
                    "collidable" := Json.Bool(p.collidable),
                    "layer" := Json.Int(p.layer)])
  }

  function ComponentToDict(c: Component): Json.Value {
    Json.Object(c.data)
  }

  const EntityKeys: set<string> := {"id", "name", "x", "y", "type", "properties", "components"}

  /** The dictionary an entity serialises to. */
  function ToDict(e: Entity): (r: Json.Value)
    ensures r.Object? && r.fields.Keys == EntityKeys
    ensures r.fields["id"] == Json.Str(e.id)
    ensures r.fields["components"].Object?
    ensures r.fields["components"].fields.Keys == e.components.Keys
    ensures forall n :: n in e.components ==>
              r.fields["components"].fields[n] == Json.Object(e.components[n].data)
  {
    var comps := map n | n in e.components :: ComponentToDict(e.components[n]);
    Json.Object(map["id" := Json.Str(e.id),
                    "name" := Json.Str(e.name),
                    "x" := Json.Float(e.x),
                    "y" := Json.Float(e.y),
                    "type" := Json.Str(e.kind),
                    "properties" := PropertiesToDict(e.properties),
                    "components" := Json.Object(comps)])
  }

  /** Reading direction of `ToDict` (the editor never reads entities back);
      it witnesses that serialisation loses nothing. */
  function PropertiesFromDict(v: Json.Value): Option<Properties> {
    if v.Object? && "visible" in v.fields && "collidable" in v.fields && "layer" in v.fields
       && v.fields["visible"].Bool? && v.fields["collidable"].Bool? && v.fields["layer"].Int?
    then Some(Properties(v.fields["visible"].b, v.fields["collidable"].b, v.fields["layer"].i))
    else None
  }

  function ComponentsFromDict(v: Json.Value): Option<map<string, Component>> {
    if v.Object? && forall n :: n in v.fields ==> v.fields[n].Object?
    then Some(map n | n in v.fields :: Component(n, v.fields[n].fields))
    else None
  }

  function FromDict(v: Json.Value): Option<Entity> {
    if v.Object? && EntityKeys <= v.fields.Keys
       && v.fields["id"].Str? && v.fields["name"].Str? && v.fields["type"].Str?
       && v.fields["x"].Float? && v.fields["y"].Float?
    then
      match (PropertiesFromDict(v.fields["properties"]), ComponentsFromDict(v.fields["components"]))
      case (Some(p), Some(cs)) =>
        Some(Entity(v.fields["id"].s, v.fields["name"].s, v.fields["x"].f, v.fields["y"].f,
                    v.fields["type"].s, cs, p))
      case _ => None
    else None
  }

  /** Serialising an entity whose components sit under their own names loses nothing. */
  lemma ToDictRoundTrip(e: Entity)
    requires WellKeyed(e)
    ensures FromDict(ToDict(e)) == Some(e)
  {
    var d := ToDict(e);
    ComponentsRoundTrip(e.components);
    PropertiesRoundTrip(e.properties);
    assert d.fields["components"] == Json.Object(map n | n in e.components :: ComponentToDict(e.components[n]));
    assert d.fields["properties"] == PropertiesToDict(e.properties);
  }

  lemma ComponentsRoundTrip(comps: map<string, Component>)
    requires forall n :: n in comps ==> comps[n].name == n
    ensures ComponentsFromDict(Json.Object(map n | n in comps :: ComponentToDict(comps[n]))) == Some(comps)
  {
    var cv := Json.Object(map n | n in comps :: ComponentToDict(comps[n]));
    var cs := map n | n in cv.fields :: Component(n, cv.fields[n].fields);
    assert forall n :: n in comps ==> cs[n] == comps[n];
    assert cs == comps;
  }

  lemma PropertiesRoundTrip(p: Properties)
    ensures PropertiesFromDict(PropertiesToDict(p)) == Some(p)
  {
  }

  // ---------------------------------------------------------------------------
  // The registry

  /** `order` lists the ids in dictionary (insertion) order. */
  datatype Registry = Registry(order: seq<string>, entities: map<string, Entity>)

  predicate Distinct(s: seq<string>) {
    forall i, j :: 0 <= i < j < |s| ==> s[i] != s[j]
  }

  /** Representation invariant: `order` enumerates the keys once each, and
      every entity is stored under its own id with well-keyed components. */
  predicate Valid(reg: Registry) {
    && Distinct(reg.order)
    && (forall i :: 0 <= i < |reg.order| ==> reg.order[i] in reg.entities)
    && (forall k :: k in reg.entities ==> k in reg.order)
    && (forall k :: k in reg.entities ==> reg.entities[k].id == k && WellKeyed(reg.entities[k]))
  }

  const EmptyRegistry: Registry := Registry([], map[])

  lemma EmptyRegistryValid()
    ensures Valid(EmptyRegistry) && |EmptyRegistry.entities| == 0
  {
  }

  /** `create_entity`: builds a fresh entity and stores it under its id; an
      id already present is overwritten in place. */
  function CreateEntity(reg: Registry, id: string, name: string, x: real, y: real, kind: string): (r: (Registry, Entity))
    ensures r.1 == NewEntity(id, name, x, y, kind)
    ensures id in r.0.entities && r.0.entities[id] == r.1
    ensures forall k :: k != id ==>
              (k in r.0.entities <==> k in reg.entities) &&
              (k in reg.entities ==> r.0.entities[k] == reg.entities[k])
    ensures id !in reg.entities ==> r.0.order == reg.order + [id] && |r.0.entities| == |reg.entities| + 1
    ensures id in reg.entities ==> r.0.order == reg.order && |r.0.entities| == |reg.entities|
    ensures Valid(reg) ==> Valid(r.0)
  {
    var e := NewEntity(id, name, x, y, kind);
    var order := if id in reg.entities then reg.order else reg.order + [id];
    (Registry(order, reg.entities[id := e]), e)
  }

  /** `create_entity` without a type: the entity is a "sprite". */
  function CreateEntityDefault(reg: Registry, id: string, name: string, x: real, y: real): (r: (Registry, Entity))
    ensures r.1.kind == DefaultKind
    ensures r == CreateEntity(reg, id, name, x, y, DefaultKind)
  {
    CreateEntity(reg, id, name, x, y, DefaultKind)
  }

  /** `entity.add_component(c)` on an entity obtained from the registry. The
      registry stores the very object `create_entity` returned, so the
      component shows in the registry; an id the registry no longer holds
      (a removed entity) leaves the registry as it is. */
  function AddComponentTo(reg: Registry, id: string, c: Component): (r: Registry)
    ensures r.order == reg.order && r.entities.Keys == reg.entities.Keys
    ensures id in reg.entities ==> r.entities[id] == AddComponent(reg.entities[id], c)
    ensures forall k :: k in reg.entities && k != id ==> r.entities[k] == reg.entities[k]
    ensures Valid(reg) ==> Valid(r)
  {
    if id in reg.entities then
      Registry(reg.order, reg.entities[id := AddComponent(reg.entities[id], c)])
    else reg
  }

  /** A component added to a stored entity appears, under its name, in that
      entity's serialised dictionary. */
  lemma SerializeShowsComponent(reg: Registry, i: int, c: Component)
    requires Valid(reg) && 0 <= i < |reg.order|
    ensures var s := Serialize(AddComponentTo(reg, reg.order[i], c));
            s[i].Object? && "components" in s[i].fields && s[i].fields["components"].Object? &&
            s[i].fields["components"].fields[c.name] == Json.Object(c.data)
  {
    var r := AddComponentTo(reg, reg.order[i], c);
    var e := r.entities[reg.order[i]];
    assert c.name in e.components && e.components[c.name] == c;
  }

  /** `get_entity`: the dictionary's `get`, None for an absent id. */
  function GetEntity(reg: Registry, id: string): (r: Option<Entity>)
    ensures r.Some? <==> id in reg.entities
    ensures r.Some? ==> r.value == reg.entities[id]
  {
    if id in reg.entities then Some(reg.entities[id]) else None
  }

  /** The sequence without any occurrence of `k`, order kept. */
  function Without(s: seq<string>, k: string): (r: seq<string>)
    ensures forall x :: x in r <==> x in s && x != k
    ensures Distinct(s) ==> Distinct(r)
    ensures k !in s ==> r == s
    ensures |r| <= |s|
  {
    if |s| == 0 then []
    else if s[0] == k then Without(s[1..], k)
    else
      var rest := Without(s[1..], k);
      assert Distinct(s) ==> s[0] !in s[1..];
      [s[0]] + rest
  }

  /** `remove_entity`: deletes the id if present, otherwise does nothing. */
  function RemoveEntity(reg: Registry, id: string): (r: Registry)
    ensures r.entities.Keys == reg.entities.Keys - {id}
    ensures forall k :: k in r.entities ==> r.entities[k] == reg.entities[k]
    ensures id in reg.entities ==> |r.entities| == |reg.entities| - 1
    ensures id !in reg.entities ==> r == reg
    ensures id in reg.entities ==> r.order == Without(reg.order, id)
  {
    if id in reg.entities then Registry(Without(reg.order, id), reg.entities - {id}) else reg
  }

  lemma RemoveKeepsValid(reg: Registry, id: string)
    requires Valid(reg)
    ensures Valid(RemoveEntity(reg, id))
  {
    if id in reg.entities {
      var r := RemoveEntity(reg, id);
      assert forall i :: 0 <= i < |r.order| ==> r.order[i] in r.order;
    }
  }

  lemma {:induction false} DistinctCardinality(s: seq<string>)
    requires Distinct(s)
    ensures |set x | x in s| == |s|
  {
    if |s| > 0 {
      var t := s[1..];
      DistinctCardinality(t);
      assert (set x | x in s) == (set x | x in t) + {s[0]};
      assert s[0] !in t;
    }
  }

  lemma ValidOrderLength(reg: Registry)
    requires Valid(reg)
    ensures |reg.order| == |reg.entities|
  {
    DistinctCardinality(reg.order);
    assert (set x | x in reg.order) == reg.entities.Keys;
  }

  /** `get_all_entities`: the stored entities in insertion order, each once. */
  function GetAllEntities(reg: Registry): (r: seq<Entity>)
    requires Valid(reg)
    ensures |r| == |reg.order| == |reg.entities|
    ensures forall i :: 0 <= i < |r| ==> r[i] == reg.entities[reg.order[i]]
    ensures forall k :: k in reg.entities ==> reg.entities[k] in r
  {
    ValidOrderLength(reg);
    var r := seq(|reg.order|, i requires 0 <= i < |reg.order| => reg.entities[reg.order[i]]);
    assert forall k :: k in reg.entities ==> reg.entities[k] in r by {
      forall k | k in reg.entities
        ensures reg.entities[k] in r
      {
        var i :| 0 <= i < |reg.order| && reg.order[i] == k;
        assert r[i] == reg.entities[k];
      }
    }
    r
  }

  /** `serialize`: one dictionary per stored entity, in insertion order; the
      `id` of each is the key it is stored under, so the ids are distinct, and
      each dictionary reads back as the stored entity. */
  function Serialize(reg: Registry): (r: seq<Json.Value>)
    requires Valid(reg)
    ensures |r| == |reg.order| == |reg.entities|
    ensures forall i :: 0 <= i < |r| ==> r[i] == ToDict(reg.entities[reg.order[i]])
    ensures forall i :: 0 <= i < |r| ==>
              r[i].Object? && "id" in r[i].fields && r[i].fields["id"] == Json.Str(reg.order[i])
    ensures forall i, j :: 0 <= i < j < |r| ==> r[i].fields["id"] != r[j].fields["id"]
    ensures forall i :: 0 <= i < |r| ==> FromDict(r[i]) == Some(reg.entities[reg.order[i]])
  {
    ValidOrderLength(reg);
    var r := seq(|reg.order|, i requires 0 <= i < |reg.order| => ToDict(reg.entities[reg.order[i]]));
    SerializedEntries(reg, r);
    SerializedIdsDistinct(reg, r);
    r
  }

  /** Each stored entity's dictionary carries its key as `id` and reads back
      as the entity. */
  lemma SerializedEntries(reg: Registry, r: seq<Json.Value>)
    requires Valid(reg) && |r| == |reg.order|
    requires forall i :: 0 <= i < |r| ==> r[i] == ToDict(reg.entities[reg.order[i]])
    ensures forall i :: 0 <= i < |r| ==>
              r[i].Object? && "id" in r[i].fields && r[i].fields["id"] == Json.Str(reg.order[i])
    ensures forall i :: 0 <= i < |r| ==> FromDict(r[i]) == Some(reg.entities[reg.order[i]])
  {
    forall i | 0 <= i < |r|
      ensures r[i].Object? && "id" in r[i].fields && r[i].fields["id"] == Json.Str(reg.order[i])
      ensures FromDict(r[i]) == Some(reg.entities[reg.order[i]])
    {
      ToDictRoundTrip(reg.entities[reg.order[i]]);
    }
  }

  lemma SerializedIdsDistinct(reg: Registry, r: seq<Json.Value>)
    requires Distinct(reg.order) && |r| == |reg.order|
    requires forall i :: 0 <= i < |r| ==>
               r[i].Object? && "id" in r[i].fields && r[i].fields["id"] == Json.Str(reg.order[i])
    ensures forall i, j :: 0 <= i < j < |r| ==> r[i].fields["id"] != r[j].fields["id"]
  {
    forall i, j | 0 <= i < j < |r|
      ensures r[i].fields["id"] != r[j].fields["id"]
    {
      assert reg.order[i] != reg.order[j];
    }
  }

  /** After `create_entity`, `get_entity` of the new id returns it and every
      other id answers as before. */
  lemma CreateThenGet(reg: Registry, id: string, name: string, x: real, y: real, kind: string, other: string)
    requires other != id
    ensures GetEntity(CreateEntity(reg, id, name, x, y, kind).0, id) == Some(NewEntity(id, name, x, y, kind))
    ensures GetEntity(CreateEntity(reg, id, name, x, y, kind).0, other) == GetEntity(reg, other)
  {
  }

  /** After `remove_entity`, `get_entity` of that id returns None and every
      other id answers as before. */
  lemma RemoveThenGet(reg: Registry, id: string, other: string)
    requires other != id
    ensures GetEntity(RemoveEntity(reg, id), id) == None
    ensures GetEntity(RemoveEntity(reg, id), other) == GetEntity(reg, other)
  {
  }

  /** Creating under a fresh id and removing it again restores the registry. */
  lemma CreateThenRemove(reg: Registry, id: string, name: string, x: real, y: real, kind: string)
    requires Valid(reg) && id !in reg.entities
    ensures RemoveEntity(CreateEntity(reg, id, name, x, y, kind).0, id) == reg
  {
    var e := NewEntity(id, name, x, y, kind);
    assert id !in reg.order;
    assert CreateEntity(reg, id, name, x, y, kind).0 == Registry(reg.order + [id], reg.entities[id := e]);
    RemoveAppended(reg.order, reg.entities, id, e);
  }

  lemma RemoveAppended(order: seq<string>, entities: map<string, Entity>, id: string, e: Entity)
    requires id !in order && id !in entities
    ensures RemoveEntity(Registry(order + [id], entities[id := e]), id) == Registry(order, entities)
  {
    WithoutAppend(order, id);
    assert entities[id := e] - {id} == entities;
  }

  lemma {:induction false} WithoutAppend(s: seq<string>, k: string)
    requires k !in s
    ensures Without(s + [k], k) == s
  {
    if |s| > 0 {
      assert (s + [k])[1..] == s[1..] + [k];
      WithoutAppend(s[1..], k);
    }
  }

  /** Dropping the one occurrence of `k` at position `i` keeps the others in
      order. */
  lemma {:induction false} WithoutAt(s: seq<string>, k: string, i: int)
    requires Distinct(s) && 0 <= i < |s| && s[i] == k
    ensures Without(s, k) == s[..i] + s[i + 1..]
  {
    if i == 0 {
      assert k !in s[1..];
      assert s[..0] + s[1..] == s[1..];
    } else {
      assert s[0] != k;
      assert Distinct(s[1..]);
      assert s[1..][i - 1] == k;
      WithoutAt(s[1..], k, i - 1);
      assert s[..i] + s[i + 1..] == [s[0]] + (s[1..][..i - 1] + s[1..][i..]);
    }
  }

  /** `del` keeps the dictionary's order: removing the id at position `i`
      leaves the other ids in their old order. */
  lemma RemoveKeepsOrder(reg: Registry, i: int)
    requires Valid(reg) && 0 <= i < |reg.order|
    ensures RemoveEntity(reg, reg.order[i]).order == reg.order[..i] + reg.order[i + 1..]
  {
    WithoutAt(reg.order, reg.order[i], i);
  }

  /** Removing the entity at position `i` of `get_all_entities` leaves the
      other entities listed in their old order. */
  lemma RemoveKeepsListing(reg: Registry, i: int)
    requires Valid(reg) && 0 <= i < |reg.order|
    ensures Valid(RemoveEntity(reg, reg.order[i])) &&
            var all := GetAllEntities(reg);
            GetAllEntities(RemoveEntity(reg, reg.order[i])) == all[..i] + all[i + 1..]
  {
    var id := reg.order[i];
    RemoveKeepsOrder(reg, i);
    RemoveKeepsValid(reg, id);
    var r := RemoveEntity(reg, id);
    var all := GetAllEntities(reg);
    var after := GetAllEntities(r);
    var expected := all[..i] + all[i + 1..];
    var front, back := reg.order[..i], reg.order[i + 1..];
    assert r.order == front + back && |front| == i;
    assert |after| == |expected|;
    forall j | 0 <= j < |after|
      ensures after[j] == expected[j]
    {
      if j < i {
        assert r.order[j] == front[j] == reg.order[j];
        assert expected[j] == all[j];
      } else {
        assert r.order[j] == back[j - i] == reg.order[j + 1];
        assert expected[j] == all[j + 1];
      }
    }
  }
}

=== FILE: json.dfy ===
/** The JSON values the editor writes: project files, entity dictionaries and
    component data. */
module Json {

  datatype Value =
    | Null
    | Bool(b: bool)
    | Int(i: int)
    | Float(f: real)
    | Str(s: string)
    | Array(items: seq<Value>)
    | Object(fields: map<string, Value>)
}

=== FILE: map_viewport.dfy ===
/** The map viewport's editing state: the tool, the selected tile, the
    current layer, the loaded project, the grid overlay, the zoom level and
    the painted tiles. The scene graph is abstracted: a painted tile is a
    rect item recorded with its cell, and a grid line with its end points. */
module Viewport {
  import opened Results
  import opened Ranges
  import Projects

  datatype Tool = Paint | Erase | Select

  datatype MouseButton = Left | Right | Middle

  datatype Cell = Cell(x: int, y: int)

  /** A painted tile's rect item: its cell, the tile id painted with, its z
      value (the layer current when painted) and the layer group, if any,
      it was added to. */
  datatype RectItem = RectItem(cell: Cell, tileId: string, z: int, group: Option<nat>)

  datatype Line = Line(x1: int, y1: int, x2: int, y2: int)

  datatype LayerGroup = LayerGroup(z: int)

  /** An emission of the `tile_placed(x, y, tile_id)` signal. */
  datatype TilePlaced = TilePlaced(x: int, y: int, tileId: string)

  datatype Viewport = Viewport(
    gridSize: int,
    showGrid: bool,
    currentLayer: nat,
    tool: Tool,
    selectedTile: Option<string>,
    mapData: Option<Projects.Project>,
    layers: seq<LayerGroup>,
    gridLines: seq<Line>,
    zoom: real,
    items: seq<RectItem>,
    sceneSize: Option<(int, int)>,
    placed: seq<TilePlaced>)

  const DefaultGridSize: int := 32
  const ZoomStep: real := 1.15
  const MinZoom: real := 0.1
  const MaxZoom: real := 5.0

  /** The viewport as constructed: paint tool, grid shown, nothing loaded. */
  function Init(): (v: Viewport)
    ensures v.gridSize == DefaultGridSize && v.showGrid && v.currentLayer == 0
    ensures v.tool == Paint && v.selectedTile.None? && v.mapData.None?
    ensures v.zoom == 1.0 && v.items == [] && v.gridLines == [] && v.layers == []
  {
    Viewport(DefaultGridSize, true, 0, Paint, None, None, [], [], 1.0, [], None, [])
  }

  // ---------------------------------------------------------------------------
  // Pointer to cell

  /** Python's `s // g` for a float `s` and a whole `g`: the quotient rounded
      down, for either sign of `g`. */
  function FloorDiv(s: real, g: int): (q: int)
    requires g != 0
    ensures g > 0 ==> (q * g) as real <= s < (q * g + g) as real
    ensures g < 0 ==> (q * g + g) as real < s <= (q * g) as real
  {
    var q := (s / g as real).Floor;
    FloorBounds(s, g, q);
    q
  }

  lemma FloorBounds(s: real, g: int, q: int)
    requires g != 0 && q as real <= s / g as real < q as real + 1.0
    ensures g > 0 ==> (q * g) as real <= s < (q * g + g) as real
    ensures g < 0 ==> (q * g + g) as real < s <= (q * g) as real
  {
    var t := s / g as real;
    assert s == t * g as real;
    assert (q * g) as real == q as real * g as real;
    assert (q * g + g) as real == (q as real + 1.0) * g as real;
    if g > 0 {
      MulLess(q as real, t, g as real);
      MulLess(t, q as real + 1.0, g as real);
    } else {
      MulLess(q as real, t, -g as real);
      MulLess(t, q as real + 1.0, -g as real);
    }
  }

  lemma MulLess(a: real, b: real, c: real)
    requires c > 0.0
    ensures a <= b ==> a * c <= b * c
    ensures a < b ==> a * c < b * c
  {
    assert b * c - a * c == (b - a) * c;
  }

  /** The cell under scene point `(sx, sy)`: `int(s // g)` on each axis, the
      cell whose square holds the point. */
  function CellAt(sx: real, sy: real, g: int): (c: Cell)
    requires g != 0
    ensures g > 0 ==> (c.x * g) as real <= sx < (c.x * g + g) as real &&
                      (c.y * g) as real <= sy < (c.y * g + g) as real
    ensures g < 0 ==> (c.x * g + g) as real < sx <= (c.x * g) as real &&
                      (c.y * g + g) as real < sy <= (c.y * g) as real
  {
    Cell(FloorDiv(sx, g), FloorDiv(sy, g))
  }

  predicate InBounds(p: Projects.Project, c: Cell) {
    0 <= c.x < p.width && 0 <= c.y < p.height
  }

  // ---------------------------------------------------------------------------
  // Rect items by cell

  /** The rect items at cell `c`, in scene order. */
  function At(s: seq<RectItem>, c: Cell): (r: seq<RectItem>)
    ensures forall it :: it in r <==> it in s && it.cell == c
    ensures |r| <= |s|
  {
    if |s| == 0 then []
    else if s[0].cell == c then [s[0]] + At(s[1..], c)
    else At(s[1..], c)
  }

  /** The rect items not at cell `c`, in scene order: what removing every
      rect item inside the cell's rectangle leaves. */
  function Without(s: seq<RectItem>, c: Cell): (r: seq<RectItem>)
    ensures forall it :: it in r <==> it in s && it.cell != c
    ensures At(r, c) == []
    ensures forall c' :: c' != c ==> At(r, c') == At(s, c')
  {
    if |s| == 0 then []
    else if s[0].cell == c then Without(s[1..], c)
    else [s[0]] + Without(s[1..], c)
  }

  lemma {:induction false} AtAppend(s: seq<RectItem>, it: RectItem, c: Cell)
    ensures At(s + [it], c) == At(s, c) + (if it.cell == c then [it] else [])
  {
    if |s| > 0 {
      assert (s + [it])[1..] == s[1..] + [it];
      AtAppend(s[1..], it, c);
    }
  }

  lemma {:induction false} WithoutAppend(s: seq<RectItem>, it: RectItem)
    ensures Without(s + [it], it.cell) == Without(s, it.cell)
  {
    if |s| > 0 {
      assert (s + [it])[1..] == s[1..] + [it];
      WithoutAppend(s[1..], it);
    }
  }

  lemma {:induction false} WithoutTwice(s: seq<RectItem>, c: Cell)
    ensures Without(Without(s, c), c) == Without(s, c)
  {
    if |s| > 0 {
      WithoutTwice(s[1..], c);
    }
  }

  /** No cell holds two rect items: no duplicate overlays. */
  ghost predicate OnePerCell(s: seq<RectItem>) {
    forall c :: |At(s, c)| <= 1
  }

  // ---------------------------------------------------------------------------
  // Painting and erasing

  /** The group a new rect item joins: the current layer's, if it exists. */
  function GroupFor(v: Viewport): Option<nat> {
    if v.currentLayer < |v.layers| then Some(v.currentLayer) else None
  }

  /** `erase_tile`: removes every rect item in the cell, on every layer. */
  function EraseTile(v: Viewport, x: int, y: int): (r: Viewport)
    ensures At(r.items, Cell(x, y)) == []
    ensures forall c :: c != Cell(x, y) ==> At(r.items, c) == At(v.items, c)
    ensures forall it :: it in r.items ==> it in v.items
    ensures r.(items := v.items) == v
    ensures OnePerCell(v.items) ==> OnePerCell(r.items)
  {
    v.(items := Without(v.items, Cell(x, y)))
  }

  /** The rect item `place_tile` adds at cell `(x, y)` on the current layer,
      and the `tile_placed` signal it emits. */
  function AddRect(v: Viewport, x: int, y: int, tileId: string): (r: Viewport)
    ensures At(r.items, Cell(x, y)) == At(v.items, Cell(x, y)) + [RectItem(Cell(x, y), tileId, v.currentLayer, GroupFor(v))]
    ensures forall c :: c != Cell(x, y) ==> At(r.items, c) == At(v.items, c)
    ensures r.placed == v.placed + [TilePlaced(x, y, tileId)]
    ensures r.(items := v.items, placed := v.placed) == v
  {
    var it := RectItem(Cell(x, y), tileId, v.currentLayer, GroupFor(v));
    AtAppend(v.items, it, Cell(x, y));
    assert forall c :: At(v.items + [it], c) == At(v.items, c) + (if it.cell == c then [it] else []) by {
      forall c { AtAppend(v.items, it, c); }
    }
    v.(items := v.items + [it],
       placed := v.placed + [TilePlaced(x, y, tileId)])
  }

  /** `place_tile`: outside the map nothing happens; inside, the cell is
      erased, one rect item tagged with the current layer is added and
      `tile_placed` is emitted. No other cell changes. */
  function PlaceTile(v: Viewport, x: int, y: int, tileId: string): (r: Viewport)
    requires v.mapData.Some?
    ensures !InBounds(v.mapData.value, Cell(x, y)) ==> r == v
    ensures InBounds(v.mapData.value, Cell(x, y)) ==>
              At(r.items, Cell(x, y)) == [RectItem(Cell(x, y), tileId, v.currentLayer, GroupFor(v))] &&
              r.placed == v.placed + [TilePlaced(x, y, tileId)]
    ensures forall c :: c != Cell(x, y) ==> At(r.items, c) == At(v.items, c)
    ensures r.(items := v.items, placed := v.placed) == v
    ensures OnePerCell(v.items) ==> OnePerCell(r.items)
  {
    if !InBounds(v.mapData.value, Cell(x, y)) then v
    else
      AddRect(EraseTile(v, x, y), x, y, tileId)
  }

  /** Painting a cell twice with the same tile leaves the same rect items as
      painting it once: still exactly one tile there. */
  lemma PaintTwice(v: Viewport, x: int, y: int, tileId: string)
    requires v.mapData.Some?
    ensures PlaceTile(PlaceTile(v, x, y, tileId), x, y, tileId).items == PlaceTile(v, x, y, tileId).items
    ensures InBounds(v.mapData.value, Cell(x, y)) ==>
              |At(PlaceTile(PlaceTile(v, x, y, tileId), x, y, tileId).items, Cell(x, y))| == 1
  {
    if InBounds(v.mapData.value, Cell(x, y)) {
      var c := Cell(x, y);
      var it := RectItem(c, tileId, v.currentLayer, GroupFor(v));
      var once := Without(v.items, c) + [it];
      WithoutAppend(Without(v.items, c), it);
      WithoutTwice(v.items, c);
      assert Without(once, c) == Without(v.items, c);
    }
  }

  // ---------------------------------------------------------------------------
  // Erasing as written

  /** Qt's `ItemSelectionMode` members. */
  predicate IsSelectionMode(name: string) {
    name in {"ContainsItemShape", "IntersectsItemShape", "ContainsItemBoundingRect", "IntersectsItemBoundingRect"}
  }

  /** The selection mode `erase_tile` passes to `scene.items`. */
  const EraseModeAsWritten: string := "ContainsShape"

  /** `erase_tile` as written: evaluating `Qt.ItemSelectionMode.ContainsShape`
      looks up a member the enum does not have, so every call raises before
      any item is removed. `EraseTile` is the intent its docstring and
      `place_tile`'s comment state: the tile at the position is removed. */
  function EraseTileAsWritten(v: Viewport, x: int, y: int): (r: Result<Viewport, PyError>)
    ensures r.Failure? && r.error.AttributeError? && !IsSelectionMode(r.error.name)
  {
    Failure(AttributeError(EraseModeAsWritten))
  }

  /** `place_tile` as written: inside the map it calls `erase_tile` first, so
      the exception propagates before the rect item is added or the signal
      emitted; outside the map it returns without change. */
  function PlaceTileAsWritten(v: Viewport, x: int, y: int, tileId: string): (r: Result<Viewport, PyError>)
    requires v.mapData.Some?
    ensures r.Success? <==> !InBounds(v.mapData.value, Cell(x, y))
    ensures r.Success? ==> r.value == v
    ensures r.Failure? ==> r.error == AttributeError(EraseModeAsWritten)
  {
    if !InBounds(v.mapData.value, Cell(x, y)) then Success(v)
    else
      match EraseTileAsWritten(v, x, y)
      case Failure(e) => Failure(e)
      case Success(erased) => Success(AddRect(erased, x, y, tileId))
  }

  // ---------------------------------------------------------------------------
  // Grid overlay

  /** The vertical lines at every multiple of `g` from 0 to `width`, then the
      horizontal ones from 0 to `height`, as `draw_grid` adds them. */
  function GridLines(width: int, height: int, g: int): (r: seq<Line>)
    requires g != 0
    ensures |r| == |Range(0, width + 1, g)| + |Range(0, height + 1, g)|
    ensures forall i :: 0 <= i < |Range(0, width + 1, g)| ==>
              r[i].x1 == r[i].x2 == Range(0, width + 1, g)[i] && r[i].y1 == 0 && r[i].y2 == height
    ensures forall j :: |Range(0, width + 1, g)| <= j < |r| ==>
              r[j].y1 == r[j].y2 == Range(0, height + 1, g)[j - |Range(0, width + 1, g)|] &&
              r[j].x1 == 0 && r[j].x2 == width
  {
    var xs := Range(0, width + 1, g);
    var ys := Range(0, height + 1, g);
    seq(|xs|, i requires 0 <= i < |xs| => Line(xs[i], 0, xs[i], height)) +
    seq(|ys|, j requires 0 <= j < |ys| => Line(0, ys[j], width, ys[j]))
  }

  lemma GridAxis(n: int, g: int)
    requires n >= 0 && g > 0
    ensures |Range(0, n * g + 1, g)| == n + 1
    ensures forall i :: 0 <= i <= n ==> Range(0, n * g + 1, g)[i] == i * g
  {
    RangeLength(0, n * g + 1, g);
    DivUnique(n * g + 1 + g - 1, g, n + 1, 0);
    forall i | 0 <= i <= n
      ensures Range(0, n * g + 1, g)[i] == i * g
    {
      RangeIndex(0, n * g + 1, g, i);
    }
  }

  /** For a `w`×`h` map with cells of side `g`: `w + 1` vertical lines at
      `x = i * g` spanning the map's height, then `h + 1` horizontal ones at
      `y = j * g` spanning its width. */
  lemma GridLinesShape(w: int, h: int, g: int)
    requires w >= 0 && h >= 0 && g > 0
    ensures |GridLines(w * g, h * g, g)| == (w + 1) + (h + 1)
    ensures forall i :: 0 <= i <= w ==> GridLines(w * g, h * g, g)[i] == Line(i * g, 0, i * g, h * g)
    ensures forall j :: 0 <= j <= h ==> GridLines(w * g, h * g, g)[w + 1 + j] == Line(0, j * g, w * g, j * g)
  {
    GridAxis(w, g);
    GridAxis(h, g);
  }

  /** The line count of `GridLinesShape`, for any grid size. */
  lemma GridLinesCount(w: int, h: int, g: int)
    requires g != 0
    ensures g > 0 && w >= 0 && h >= 0 ==> |GridLines(w * g, h * g, g)| == (w + 1) + (h + 1)
  {
    if g > 0 && w >= 0 && h >= 0 {
      GridLinesShape(w, h, g);
    }
  }

  /** `draw_grid`: drops the old lines and, when the grid is shown and a
      project is loaded, draws the full grid; a zero grid size makes the
      line `range` raise. */
  function DrawGrid(v: Viewport): (r: Result<Viewport, PyError>)
    ensures r.Failure? <==> v.showGrid && v.mapData.Some? && v.gridSize == 0
    ensures r.Failure? ==> r.error == RangeStepZero
    ensures r.Success? ==> r.value.(gridLines := v.gridLines) == v
    ensures r.Success? && (!v.showGrid || v.mapData.None?) ==> r.value.gridLines == []
    ensures r.Success? && v.showGrid && v.mapData.Some? && v.gridSize > 0 &&
            v.mapData.value.width >= 0 && v.mapData.value.height >= 0 ==>
              |r.value.gridLines| == (v.mapData.value.width + 1) + (v.mapData.value.height + 1)
    ensures r.Success? && v.showGrid && v.mapData.Some? && v.gridSize != 0 ==>
              var p := v.mapData.value;
              r.value.gridLines == GridLines(p.width * v.gridSize, p.height * v.gridSize, v.gridSize)
  {
    if !v.showGrid || v.mapData.None? then Success(v.(gridLines := []))
    else if v.gridSize == 0 then Failure(RangeStepZero)
    else
      var p := v.mapData.value;
      GridLinesCount(p.width, p.height, v.gridSize);
      Success(v.(gridLines := GridLines(p.width * v.gridSize, p.height * v.gridSize, v.gridSize)))
  }

  /** Drawing the grid again redraws the same lines. */
  lemma DrawGridIdempotent(v: Viewport)
    requires DrawGrid(v).Success?
    ensures DrawGrid(DrawGrid(v).value) == DrawGrid(v)
  {
  }

  /** `toggle_grid`: flips visibility and redraws. */
  function ToggleGrid(v: Viewport): (r: Result<Viewport, PyError>)
    ensures r.Success? ==> r.value.showGrid == !v.showGrid
    ensures r.Success? && v.showGrid ==> r.value.gridLines == []
    ensures r.Success? && v.mapData.None? ==> r.value.gridLines == []
    ensures r.Failure? <==> !v.showGrid && v.mapData.Some? && v.gridSize == 0
    ensures r.Success? && !v.showGrid && v.mapData.Some? ==>
              var p := v.mapData.value;
              r.value.gridLines == GridLines(p.width * v.gridSize, p.height * v.gridSize, v.gridSize)
    ensures r.Success? ==> r.value.(showGrid := v.showGrid, gridLines := v.gridLines) == v
  {
    DrawGrid(v.(showGrid := !v.showGrid))
  }

  /** Toggling the grid twice restores the viewport, lines included, when
      its lines were up to date. */
  lemma ToggleTwice(v: Viewport)
    requires DrawGrid(v) == Success(v)
    requires ToggleGrid(v).Success?
    ensures ToggleGrid(ToggleGrid(v).value) == Success(v)
  {
  }

  // ---------------------------------------------------------------------------
  // Loading a project

  /** `load_project`: takes the grid size from the project (32 when absent),
      clears the scene, makes one layer group per layer entry with z equal
      to its index, redraws the grid and sizes the scene. */
  function LoadProject(v: Viewport, p: Projects.Project): (r: Result<Viewport, PyError>)
    ensures var g := if p.tileSize.Some? then p.tileSize.value else DefaultGridSize;
            r.Failure? <==> v.showGrid && g == 0
    ensures r.Success? ==> r.value.mapData == Some(p)
    ensures r.Success? ==> r.value.gridSize == if p.tileSize.Some? then p.tileSize.value else DefaultGridSize
    ensures r.Success? ==> r.value.items == []
    ensures r.Success? ==> |r.value.layers| == (if p.layers.Some? then |p.layers.value| else 0)
    ensures r.Success? ==> forall i :: 0 <= i < |r.value.layers| ==> r.value.layers[i].z == i
    ensures r.Success? ==> DrawGrid(r.value) == Success(r.value)
    ensures r.Success? ==> r.value.sceneSize == Some((p.width * r.value.gridSize, p.height * r.value.gridSize))
    ensures r.Success? ==>
              r.value.showGrid == v.showGrid && r.value.tool == v.tool &&
              r.value.selectedTile == v.selectedTile && r.value.currentLayer == v.currentLayer &&
              r.value.zoom == v.zoom && r.value.placed == v.placed
  {
    var g := if p.tileSize.Some? then p.tileSize.value else DefaultGridSize;
    var entries := if p.layers.Some? then p.layers.value else [];
    var groups := seq(|entries|, i requires 0 <= i < |entries| => LayerGroup(i));
    var cleared := v.(mapData := Some(p), gridSize := g, items := [], layers := groups, gridLines := []);
    match DrawGrid(cleared)
    case Failure(e) => Failure(e)
    case Success(drawn) => Success(drawn.(sceneSize := Some((p.width * g, p.height * g))))
  }

  // ---------------------------------------------------------------------------
  // Pointer events and setters

  /** Python truthiness of the selected tile: set and non-empty. */
  predicate HasSelection(v: Viewport) {
    v.selectedTile.Some? && v.selectedTile.value != ""
  }

  /** A left click or drag that paints: a project, the paint tool, a tile
      selected and the pointer inside the map. */
  predicate PaintsAt(v: Viewport, sx: real, sy: real) {
    v.mapData.Some? && v.gridSize != 0 && v.tool == Paint && HasSelection(v) &&
    InBounds(v.mapData.value, CellAt(sx, sy, v.gridSize))
  }

  /** `mousePressEvent`: with a project loaded and the left button, paints
      the cell under the pointer (paint tool and a tile selected), erases it
      (erase tool), or does nothing (select tool). */
  function Press(v: Viewport, button: MouseButton, sx: real, sy: real): (r: Result<Viewport, PyError>)
    ensures r.Failure? <==> v.mapData.Some? && button == Left && v.gridSize == 0
    ensures r.Failure? ==> r.error == DivisionByZero
    ensures v.mapData.None? || button != Left ==> r == Success(v)
    ensures v.tool == Select ==> r.Success? ==> r.value == v
    ensures v.tool == Paint && !HasSelection(v) ==> r.Success? ==> r.value == v
    ensures button == Left && PaintsAt(v, sx, sy) ==>
              var c := CellAt(sx, sy, v.gridSize);
              r.Success? &&
              At(r.value.items, c) == [RectItem(c, v.selectedTile.value, v.currentLayer, GroupFor(v))] &&
              r.value.placed == v.placed + [TilePlaced(c.x, c.y, v.selectedTile.value)]
    ensures r.Success? && r.value != v ==>
              v.mapData.Some? && button == Left && v.gridSize != 0 &&
              var c := CellAt(sx, sy, v.gridSize);
              (forall c' :: c' != c ==> At(r.value.items, c') == At(v.items, c')) &&
              (v.tool == Erase ==> At(r.value.items, c) == []) &&
              (v.tool == Paint ==> PaintsAt(v, sx, sy))
    ensures r.Success? && v.tool == Erase && v.mapData.Some? && button == Left ==>
              At(r.value.items, CellAt(sx, sy, v.gridSize)) == []
    ensures r.Success? ==> r.value.(items := v.items, placed := v.placed) == v
    ensures v.mapData.Some? && button == Left && v.gridSize != 0 && v.tool == Erase ==>
              var c := CellAt(sx, sy, v.gridSize);
              r == Success(EraseTile(v, c.x, c.y))
    ensures r.Success? && v.tool != Paint ==> r.value.placed == v.placed
  {
    if v.mapData.None? || button != Left then Success(v)
    else if v.gridSize == 0 then Failure(DivisionByZero)
    else
      var c := CellAt(sx, sy, v.gridSize);
      if v.tool == Paint && HasSelection(v) then Success(PlaceTile(v, c.x, c.y, v.selectedTile.value))
      else if v.tool == Erase then Success(EraseTile(v, c.x, c.y))
      else Success(v)
  }

  /** `mouseMoveEvent`: a drag with exactly the left button held paints like
      a press; it never erases, so with any other tool it does nothing. */
  function Move(v: Viewport, buttons: set<MouseButton>, sx: real, sy: real): (r: Result<Viewport, PyError>)
    ensures r.Failure? <==> v.mapData.Some? && buttons == {Left} && v.gridSize == 0
    ensures r.Failure? ==> r.error == DivisionByZero
    ensures v.tool != Paint ==> r.Success? ==> r.value == v
    ensures r.Success? ==> forall it :: it in v.items && it !in r.value.items ==>
              v.gridSize != 0 && it.cell == CellAt(sx, sy, v.gridSize)
    ensures buttons == {Left} && PaintsAt(v, sx, sy) ==>
              var c := CellAt(sx, sy, v.gridSize);
              r.Success? &&
              At(r.value.items, c) == [RectItem(c, v.selectedTile.value, v.currentLayer, GroupFor(v))] &&
              r.value.placed == v.placed + [TilePlaced(c.x, c.y, v.selectedTile.value)]
    ensures r.Success? && r.value != v ==>
              buttons == {Left} && PaintsAt(v, sx, sy) &&
              forall c' :: c' != CellAt(sx, sy, v.gridSize) ==> At(r.value.items, c') == At(v.items, c')
    ensures r.Success? ==> r.value.(items := v.items, placed := v.placed) == v
  {
    if v.mapData.None? || buttons != {Left} then Success(v)
    else if v.gridSize == 0 then Failure(DivisionByZero)
    else
      var c := CellAt(sx, sy, v.gridSize);
      if v.tool == Paint && HasSelection(v) then Success(PlaceTile(v, c.x, c.y, v.selectedTile.value))
      else Success(v)
  }

  /** `mousePressEvent` as written: every erase click and every paint click
      inside the map raises in `erase_tile`, so a click never changes the
      map. */
  function PressAsWritten(v: Viewport, button: MouseButton, sx: real, sy: real): (r: Result<Viewport, PyError>)
    ensures r.Failure? <==> v.mapData.Some? && button == Left &&
                            (v.gridSize == 0 || v.tool == Erase || PaintsAt(v, sx, sy))
    ensures v.mapData.Some? && button == Left && v.gridSize == 0 ==> r == Failure(DivisionByZero)
    ensures r.Failure? && v.gridSize != 0 ==> r.error == AttributeError(EraseModeAsWritten)
    ensures r.Success? ==> r.value == v
  {
    if v.mapData.None? || button != Left then Success(v)
    else if v.gridSize == 0 then Failure(DivisionByZero)
    else
      var c := CellAt(sx, sy, v.gridSize);
      if v.tool == Paint && HasSelection(v) then PlaceTileAsWritten(v, c.x, c.y, v.selectedTile.value)
      else if v.tool == Erase then EraseTileAsWritten(v, c.x, c.y)
      else Success(v)
  }

  /** `mouseMoveEvent` as written: a painting drag inside the map raises in
      `erase_tile`, so a drag never changes the map. */
  function MoveAsWritten(v: Viewport, buttons: set<MouseButton>, sx: real, sy: real): (r: Result<Viewport, PyError>)
    ensures r.Failure? <==> v.mapData.Some? && buttons == {Left} && (v.gridSize == 0 || PaintsAt(v, sx, sy))
    ensures v.mapData.Some? && buttons == {Left} && v.gridSize == 0 ==> r == Failure(DivisionByZero)
    ensures r.Failure? && v.gridSize != 0 ==> r.error == AttributeError(EraseModeAsWritten)
    ensures r.Success? ==> r.value == v
  {
    if v.mapData.None? || buttons != {Left} then Success(v)
    else if v.gridSize == 0 then Failure(DivisionByZero)
    else
      var c := CellAt(sx, sy, v.gridSize);
      if v.tool == Paint && HasSelection(v) then PlaceTileAsWritten(v, c.x, c.y, v.selectedTile.value)
      else Success(v)
  }

  /** Where the handlers as written and as intended part: a paint click inside
      the map raises as written and paints the cell as intended; an erase click
      raises as written and clears the cell as intended. */
  lemma ClickAsWrittenRaises(v: Viewport, sx: real, sy: real)
    requires v.mapData.Some? && v.gridSize != 0 && (v.tool == Erase || PaintsAt(v, sx, sy))
    ensures PressAsWritten(v, Left, sx, sy).Failure?
    ensures Press(v, Left, sx, sy).Success?
    ensures var c := CellAt(sx, sy, v.gridSize);
            v.tool == Erase ==> At(Press(v, Left, sx, sy).value.items, c) == []
    ensures var c := CellAt(sx, sy, v.gridSize);
            v.tool == Paint ==> At(Press(v, Left, sx, sy).value.items, c) ==
                                  [RectItem(c, v.selectedTile.value, v.currentLayer, GroupFor(v))]
  {
  }

  /** A concrete case: load a 1×1 project with 32-pixel tiles, select a tile
      and click at scene point (10, 10). As written the click raises
      AttributeError; as intended cell (0, 0) then holds the tile. */
  lemma FirstPaintAsWritten()
    ensures var v := SetSelectedTile(LoadProject(Init(), Projects.NewProject("demo", 1, 1, 32)).value, "grass_0_0");
            PressAsWritten(v, Left, 10.0, 10.0) == Failure(AttributeError(EraseModeAsWritten)) &&
            Press(v, Left, 10.0, 10.0).Success? &&
            At(Press(v, Left, 10.0, 10.0).value.items, Cell(0, 0)) == [RectItem(Cell(0, 0), "grass_0_0", 0, None)]
  {
    var v := SetSelectedTile(LoadProject(Init(), Projects.NewProject("demo", 1, 1, 32)).value, "grass_0_0");
    assert CellAt(10.0, 10.0, 32) == Cell(0, 0);
    assert PaintsAt(v, 10.0, 10.0);
  }

  /** `wheelEvent`: scales the zoom by 1.15 (or its inverse for a downward
      notch) and clamps it to [0.1, 5.0]. */
  function Wheel(v: Viewport, deltaY: int): (r: Viewport)
    ensures MinZoom <= r.zoom <= MaxZoom
    ensures r.(zoom := v.zoom) == v
    ensures MinZoom <= v.zoom <= MaxZoom ==>
              (deltaY >= 0 ==> r.zoom >= v.zoom) && (deltaY < 0 ==> r.zoom <= v.zoom)
    ensures var z := if deltaY < 0 then v.zoom / ZoomStep else v.zoom * ZoomStep;
            MinZoom <= z <= MaxZoom ==> r.zoom == z
    ensures var z := if deltaY < 0 then v.zoom / ZoomStep else v.zoom * ZoomStep;
            (z > MaxZoom ==> r.zoom == MaxZoom) && (z < MinZoom ==> r.zoom == MinZoom)
  {
    var factor := if deltaY < 0 then 1.0 / ZoomStep else ZoomStep;
    var z := v.zoom * factor;
    var clamped := if z > MaxZoom then MaxZoom else if z < MinZoom then MinZoom else z;
    v.(zoom := clamped)
  }

  /** A run of wheel notches, in order. */
  function Wheels(v: Viewport, deltas: seq<int>): Viewport
    decreases |deltas|
  {
    if |deltas| == 0 then v else Wheels(Wheel(v, deltas[0]), deltas[1..])
  }

  /** However many notches, the zoom stays within [0.1, 5.0]. */
  lemma {:induction false} WheelsBounded(v: Viewport, deltas: seq<int>)
    requires MinZoom <= v.zoom <= MaxZoom
    ensures MinZoom <= Wheels(v, deltas).zoom <= MaxZoom
    decreases |deltas|
  {
    if |deltas| > 0 {
      WheelsBounded(Wheel(v, deltas[0]), deltas[1..]);
    }
  }

  /** Repeated zooming in never lowers the zoom and never passes 5.0. */
  lemma {:induction false} ZoomInMonotone(v: Viewport, deltas: seq<int>)
    requires MinZoom <= v.zoom <= MaxZoom
    requires forall i :: 0 <= i < |deltas| ==> deltas[i] >= 0
    ensures v.zoom <= Wheels(v, deltas).zoom <= MaxZoom
    decreases |deltas|
  {
    if |deltas| > 0 {
      ZoomInMonotone(Wheel(v, deltas[0]), deltas[1..]);
    }
  }

  /** `set_current_layer`. */
  function SetCurrentLayer(v: Viewport, layer: nat): (r: Viewport)
    ensures r.currentLayer == layer && r.(currentLayer := v.currentLayer) == v
  {
    v.(currentLayer := layer)
  }

  /** `set_selected_tile`. */
  function SetSelectedTile(v: Viewport, tileId: string): (r: Viewport)
    ensures r.selectedTile == Some(tileId) && r.(selectedTile := v.selectedTile) == v
  {
    v.(selectedTile := Some(tileId))
  }

  /** Selecting a tile and a layer, then clicking inside the map with the
      paint tool, leaves exactly that tile on that layer in the clicked cell. */
  lemma SelectThenPaint(v: Viewport, tileId: string, layer: nat, sx: real, sy: real)
    requires v.mapData.Some? && v.tool == Paint && v.gridSize > 0 && tileId != ""
    requires InBounds(v.mapData.value, CellAt(sx, sy, v.gridSize))
    ensures var v' := SetCurrentLayer(SetSelectedTile(v, tileId), layer);
            var r := Press(v', Left, sx, sy);
            var c := CellAt(sx, sy, v.gridSize);
            r.Success? && At(r.value.items, c) == [RectItem(c, tileId, layer, GroupFor(v'))]
  {
    var v' := SetCurrentLayer(SetSelectedTile(v, tileId), layer);
    var c := CellAt(sx, sy, v.gridSize);
    var r := PlaceTile(v', c.x, c.y, tileId);
    var it := RectItem(c, tileId, layer, GroupFor(v'));
    AtAppend(Without(v'.items, c), it, c);
  }

  // ---------------------------------------------------------------------------
  // The viewport as a state machine

  datatype Event =
    | PressAt(button: MouseButton, sx: real, sy: real)
    | DragAt(buttons: set<MouseButton>, sx: real, sy: real)
    | WheelNotch(deltaY: int)
    | ToggleGridCmd
    | LoadCmd(project: Projects.Project)
    | SelectLayer(layer: nat)
    | SelectTile(tileId: string)

  function Step(v: Viewport, e: Event): Result<Viewport, PyError> {
    match e
    case PressAt(b, sx, sy) => Press(v, b, sx, sy)
    case DragAt(bs, sx, sy) => Move(v, bs, sx, sy)
    case WheelNotch(d) => Success(Wheel(v, d))
    case ToggleGridCmd => ToggleGrid(v)
    case LoadCmd(p) => LoadProject(v, p)
    case SelectLayer(l) => Success(SetCurrentLayer(v, l))
    case SelectTile(t) => Success(SetSelectedTile(v, t))
  }

  /** What every reachable viewport satisfies: at most one tile per cell,
      every tile inside the loaded map and in an existing layer group, the
      grid lines up to date and the zoom within its clamp. */
  ghost predicate Valid(v: Viewport) {
    && OnePerCell(v.items)
    && (forall it :: it in v.items ==> v.mapData.Some? && InBounds(v.mapData.value, it.cell))
    && (forall it :: it in v.items && it.group.Some? ==> it.group.value < |v.layers|)
    && DrawGrid(v) == Success(v)
    && MinZoom <= v.zoom <= MaxZoom
  }

  lemma InitValid()
    ensures Valid(Init())
  {
  }

  lemma PlaceKeepsValid(v: Viewport, x: int, y: int, tileId: string)
    requires Valid(v) && v.mapData.Some?
    ensures Valid(PlaceTile(v, x, y, tileId))
  {
    var r := PlaceTile(v, x, y, tileId);
    if InBounds(v.mapData.value, Cell(x, y)) {
      assert forall it :: it in r.items ==> it in Without(v.items, Cell(x, y)) || it.cell == Cell(x, y);
    }
  }

  /** Every event from a valid viewport that does not raise leads to a valid one. */
  lemma StepKeepsValid(v: Viewport, e: Event)
    requires Valid(v)
    requires Step(v, e).Success?
    ensures Valid(Step(v, e).value)
  {
    match e
    case PressAt(b, sx, sy) =>
      if v.mapData.Some? && b == Left {
        var c := CellAt(sx, sy, v.gridSize);
        if v.tool == Paint && HasSelection(v) {
          PlaceKeepsValid(v, c.x, c.y, v.selectedTile.value);
        }
      }
    case DragAt(bs, sx, sy) =>
      if v.mapData.Some? && bs == {Left} {
        var c := CellAt(sx, sy, v.gridSize);
        if v.tool == Paint && HasSelection(v) {
          PlaceKeepsValid(v, c.x, c.y, v.selectedTile.value);
        }
      }
    case WheelNotch(d) =>
    case ToggleGridCmd =>
    case LoadCmd(p) =>
    case SelectLayer(l) =>
    case SelectTile(t) =>
  }
}

=== FILE: project_manager.dfy ===
/** The project store: creates, loads and saves project records. The
    filesystem is a map from path to the record a file holds (JSON encoding
    and decoding are taken to be exact inverses). */
module Projects {
  import opened Results
  import Json

  /** A project document. `tile_size` and `layers` may be missing from a
      file written by hand; the editor always writes both. */
  datatype Project = Project(
    name: string,
    width: int,
    height: int,
    tileSize: Option<int>,
    layers: Option<seq<Json.Value>>,
    entities: seq<Json.Value>)

  type Path = string

  datatype ProjectManager = ProjectManager(
    current: Option<Project>,
    projectsDir: Path,
    files: map<Path, Project>)

  const DefaultTileSize: int := 32
  const ProjectsDir: Path := "assets/projects"
  const Extension: string := ".h2d"

  /** The manager at start-up over an existing filesystem. */
  function Init(files: map<Path, Project>): (pm: ProjectManager)
    ensures pm.current.None? && pm.projectsDir == ProjectsDir && pm.files == files
  {
    ProjectManager(None, ProjectsDir, files)
  }

  /** `dir / name`: joining onto an absolute name yields the name itself. */
  function Join(dir: Path, name: string): Path {
    if |name| > 0 && name[0] == '/' then name else dir + "/" + name
  }

  /** `projects_dir / f"{name}.h2d"`. */
  function DefaultPath(dir: Path, name: string): (p: Path)
    ensures |p| >= |Extension| && p[|p| - |Extension|..] == Extension
    ensures !(|name| > 0 && name[0] == '/') ==> p == dir + "/" + name + Extension
  {
    Join(dir, name + Extension)
  }

  /** The record `create_project` builds: no layers and no entities yet. */
  function NewProject(name: string, width: int, height: int, tileSize: int): (p: Project)
    ensures p.name == name && p.width == width && p.height == height
    ensures p.tileSize == Some(tileSize)
    ensures p.layers == Some([]) && p.entities == []
  {
    Project(name, width, height, Some(tileSize), Some([]), [])
  }

  /** `create_project`: writes the new record at the default path for its
      name and makes it the current project. */
  function CreateProject(pm: ProjectManager, name: string, width: int, height: int, tileSize: int)
    : (r: (ProjectManager, Project))
    ensures r.1 == NewProject(name, width, height, tileSize)
    ensures r.0.current == Some(r.1)
    ensures r.0.projectsDir == pm.projectsDir
    ensures DefaultPath(pm.projectsDir, name) in r.0.files
    ensures r.0.files[DefaultPath(pm.projectsDir, name)] == r.1
    ensures forall q :: q != DefaultPath(pm.projectsDir, name) ==>
              (q in r.0.files <==> q in pm.files) && (q in pm.files ==> r.0.files[q] == pm.files[q])
  {
    var p := NewProject(name, width, height, tileSize);
    (pm.(current := Some(p), files := pm.files[DefaultPath(pm.projectsDir, name) := p]), p)
  }

  /** `create_project` with the tile size left at its default of 32. */
  function CreateProjectDefault(pm: ProjectManager, name: string, width: int, height: int)
    : (r: (ProjectManager, Project))
    ensures r.1.tileSize == Some(DefaultTileSize)
    ensures r == CreateProject(pm, name, width, height, DefaultTileSize)
  {
    CreateProject(pm, name, width, height, DefaultTileSize)
  }

  /** `load_project`: reads the record at `path` and makes it current; a
      missing file raises and leaves the manager as it was. */
  function LoadProject(pm: ProjectManager, path: Path): (r: Result<(ProjectManager, Project), PyError>)
    ensures r.Failure? <==> path !in pm.files
    ensures r.Failure? ==> r.error == FileNotFound(path)
    ensures r.Success? ==> r.value.1 == pm.files[path]
    ensures r.Success? ==> r.value.0 == pm.(current := Some(pm.files[path]))
  {
    if path in pm.files then Success((pm.(current := Some(pm.files[path])), pm.files[path]))
    else Failure(FileNotFound(path))
  }

  /** Where `save_project` writes: the given path, or the default path for
      the project's name when the path is None or empty (falsy). */
  function SaveTarget(pm: ProjectManager, project: Project, path: Option<Path>): (t: Path)
    ensures path.Some? && path.value != "" ==> t == path.value
    ensures path.None? || path.value == "" ==> t == DefaultPath(pm.projectsDir, project.name)
  {
    if path.Some? && path.value != "" then path.value else DefaultPath(pm.projectsDir, project.name)
  }

  /** `save_project`: writes the record at its target; the current project
      and every other file stay as they were. */
  function SaveProject(pm: ProjectManager, project: Project, path: Option<Path>): (r: ProjectManager)
    ensures r.current == pm.current && r.projectsDir == pm.projectsDir
    ensures SaveTarget(pm, project, path) in r.files
    ensures r.files[SaveTarget(pm, project, path)] == project
    ensures forall q :: q != SaveTarget(pm, project, path) ==>
              (q in r.files <==> q in pm.files) && (q in pm.files ==> r.files[q] == pm.files[q])
  {
    pm.(files := pm.files[SaveTarget(pm, project, path) := project])
  }

  /** Creating a project and loading its default path gives back the same
      record, which is then current. */
  lemma CreateThenLoad(pm: ProjectManager, name: string, width: int, height: int, tileSize: int)
    ensures var (pm', p) := CreateProject(pm, name, width, height, tileSize);
            LoadProject(pm', DefaultPath(pm.projectsDir, name)) == Success((pm', p))
  {
  }

  /** Saving and loading the path saved to gives back the same record. */
  lemma SaveThenLoad(pm: ProjectManager, project: Project, path: Option<Path>)
    ensures var pm' := SaveProject(pm, project, path);
            LoadProject(pm', SaveTarget(pm, project, path)) == Success((pm'.(current := Some(project)), project))
  {
  }

  /** Saving the current project without a path and reloading its default
      path changes nothing: the round trip of the editor's Save command. */
  lemma SaveCurrentThenLoad(pm: ProjectManager)
    requires pm.current.Some?
    ensures var pm' := SaveProject(pm, pm.current.value, None);
            LoadProject(pm', DefaultPath(pm.projectsDir, pm.current.value.name)) == Success((pm', pm.current.value))
  {
  }

  /** A save to one path is invisible to loads of any other path. */
  lemma SaveIsolated(pm: ProjectManager, project: Project, path: Option<Path>, other: Path)
    requires other != SaveTarget(pm, project, path)
    ensures LoadProject(SaveProject(pm, project, path), other).Failure? <==> LoadProject(pm, other).Failure?
    ensures LoadProject(pm, other).Success? ==>
              LoadProject(SaveProject(pm, project, path), other).value.1 == LoadProject(pm, other).value.1
  {
  }
}

=== FILE: ranges.dfy ===
/** Python's `range(start, stop, step)`, the loop driver of tile slicing and
    grid drawing. A zero step raises in Python; callers check it first. */
module Ranges {

  /** The numbers `range(start, stop, step)` enumerates, in order. */
  function Range(start: int, stop: int, step: int): (r: seq<int>)
    requires step != 0
    ensures step > 0 ==> forall i :: 0 <= i < |r| ==> start <= r[i] < stop
    ensures step < 0 ==> forall i :: 0 <= i < |r| ==> stop < r[i] <= start
    ensures step > 0 ==> forall i, j :: 0 <= i < j < |r| ==> r[i] < r[j]
    decreases if step > 0 then stop - start else start - stop
  {
    if step > 0 && start < stop then [start] + Range(start + step, stop, step)
    else if step < 0 && start > stop then [start] + Range(start + step, stop, step)
    else []
  }

  /** `ceil(a / b)` for a positive divisor. */
  function CeilDiv(a: nat, b: int): nat
    requires b > 0
  {
    (a + b - 1) / b
  }

  lemma {:induction false} MulAtLeast(x: int, b: int)
    requires x >= 1 && b > 0
    ensures x * b >= b
    decreases x
  {
    if x > 1 {
      MulAtLeast(x - 1, b);
      assert x * b == (x - 1) * b + b;
    }
  }

  /** Euclidean division is determined by quotient and remainder. */
  lemma DivUnique(n: int, b: int, k: int, r: int)
    requires b > 0 && 0 <= r < b && n == k * b + r
    ensures n / b == k && n % b == r
  {
    var q, m := n / b, n % b;
    assert n == q * b + m;
    if q > k {
      MulAtLeast(q - k, b);
      assert false;
    } else if q < k {
      MulAtLeast(k - q, b);
      assert false;
    }
  }

  lemma DivStep(a: int, b: int)
    requires b > 0
    ensures (a + b) / b == a / b + 1
  {
    var q, m := a / b, a % b;
    assert a + b == (q + 1) * b + m;
    DivUnique(a + b, b, q + 1, m);
  }

  lemma {:induction false} RangeIndex(start: int, stop: int, step: int, i: int)
    requires step > 0
    requires 0 <= i < |Range(start, stop, step)|
    ensures Range(start, stop, step)[i] == start + i * step
    decreases i
  {
    if i > 0 {
      RangeIndex(start + step, stop, step, i - 1);
    }
  }

  /** A range with a positive step holds `ceil((stop - start) / step)` numbers. */
  lemma {:induction false} RangeLength(start: int, stop: int, step: int)
    requires step > 0
    ensures |Range(start, stop, step)| == if start < stop then CeilDiv(stop - start, step) else 0
    decreases stop - start
  {
    if start < stop {
      RangeLength(start + step, stop, step);
      var rest := Range(start + step, stop, step);
      assert Range(start, stop, step) == [start] + rest;
      var d := stop - start;
      if d <= step {
        assert |rest| == 0;
        DivUnique(d + step - 1, step, 1, d - 1);
      } else {
        assert |rest| == (d - 1) / step;
        DivStep(d - 1, step);
      }
    }
  }

  lemma ModStep(a: int, b: int)
    requires b > 0
    ensures (a - b) % b == a % b
  {
    var q, m := a / b, a % b;
    assert a - b == (q - 1) * b + m;
    DivUnique(a - b, b, q - 1, m);
  }

  /** With a positive step, `x` is enumerated iff it lies in `[start, stop)`
      at a whole number of steps from `start`. */
  lemma {:induction false} RangeMember(start: int, stop: int, step: int, x: int)
    requires step > 0
    ensures x in Range(start, stop, step) <==> start <= x < stop && (x - start) % step == 0
    decreases stop - start
  {
    if start < stop {
      RangeHead(start, stop, step, x);
      if x < start + step {
        FirstStep(start, step, x);
        RangeAbove(start + step, stop, step, x);
      } else {
        RangeMember(start + step, stop, step, x);
        ModStep(x - start, step);
      }
    }
  }

  lemma RangeHead(start: int, stop: int, step: int, x: int)
    requires step > 0 && start < stop
    ensures x in Range(start, stop, step) <==> x == start || x in Range(start + step, stop, step)
  {
    assert Range(start, stop, step) == [start] + Range(start + step, stop, step);
  }

  /** No number below `start` is enumerated. */
  lemma RangeAbove(start: int, stop: int, step: int, x: int)
    requires step > 0 && x < start
    ensures x !in Range(start, stop, step)
  {
  }

  /** Within the first step, only `start` is a whole number of steps away. */
  lemma FirstStep(start: int, step: int, x: int)
    requires step > 0 && x < start + step
    ensures start <= x && (x - start) % step == 0 <==> x == start
  {
    if start <= x {
      DivUnique(x - start, step, 0, x - start);
    }
  }
}

=== FILE: results.dfy ===
/** Failure-carrying values shared by the editor model: an optional value
    (Python's `None` result of a lookup) and a value-or-error outcome (a call
    that raises). */
module Results {

  datatype Option<+T> = None | Some(value: T)

  datatype Result<+T, +E> = Success(value: T) | Failure(error: E)

  /** The Python exceptions the modelled code can raise. */
  datatype PyError =
    | RangeStepZero          // `range(..., 0)` raises ValueError
    | DivisionByZero         // `float // 0` raises ZeroDivisionError
    | FileNotFound(path: string)
    | AttributeError(name: string)  // a missing attribute or enum member
}

=== FILE: tile_manager.dfy ===
/** The tile manager: slices a tileset image into tile-sized crops keyed by
    `name_x_y`, records the tileset, and looks single tiles up again. The
    image itself is reduced to its size. */
module Tiles {
  import opened Results
  import opened Decimal
  import opened Ranges

  datatype Image = Image(width: nat, height: nat)

  /** A tile is the crop box (left, top, right, bottom) of the source image;
      where the box runs past the image edge the crop is padded. */
  datatype Tile = Tile(left: int, top: int, right: int, bottom: int)

  datatype Tileset = Tileset(path: string, tileSize: int, tiles: map<string, Tile>)

  datatype TileManager = TileManager(tilesets: map<string, Tileset>)


  function Crop(x: int, y: int, size: int): Tile {
    Tile(x, y, x + size, y + size)
  }

  // ---------------------------------------------------------------------------
  // Tile keys

  /** The key `f"{name}_{x}_{y}"`: the tileset name, then the origin's
      decimal coordinates, each after an underscore. */
  function Key(name: string, x: int, y: int): (k: string)
    ensures |k| >= |name| + 4 && k[..|name|] == name && k[|name|] == '_'
    ensures forall i :: |name| < i < |k| ==> k[i] == '_' || k[i] == '-' || IsDigit(k[i])
  {
    var k := name + "_" + IntStr(x) + "_" + IntStr(y);
    assert k[..|name|] == name;
    k
  }

  datatype KeyParts = KeyParts(name: string, x: int, y: int)

  /** Position of the last occurrence of `c` in `s`. */
  function LastIndex(s: string, c: char): (r: Option<nat>)
    ensures r.None? ==> c !in s
    ensures r.Some? ==> r.value < |s| && s[r.value] == c &&
                        forall i :: r.value < i < |s| ==> s[i] != c
  {
    if |s| == 0 then None
    else if s[|s| - 1] == c then Some(|s| - 1)
    else LastIndex(s[..|s| - 1], c)
  }

  /** Splits a key at its last two underscores; the inverse of `Key`. */
  function ParseKey(k: string): Option<KeyParts> {
    match LastIndex(k, '_')
    case None => None
    case Some(j) =>
      var rest := k[..j];
      match LastIndex(rest, '_')
      case None => None
      case Some(i) =>
        match (ParseInt(rest[i + 1..]), ParseInt(k[j + 1..]))
        case (Some(x), Some(y)) => Some(KeyParts(rest[..i], x, y))
        case _ => None
  }

  lemma {:induction false} LastIndexOfJoin(a: string, b: string, c: char)
    requires c !in b
    ensures LastIndex(a + [c] + b, c) == Some(|a|)
    decreases |b|
  {
    var s := a + [c] + b;
    if |b| == 0 {
      assert s == a + [c];
    } else {
      var b' := b[..|b| - 1];
      assert s[..|s| - 1] == a + [c] + b';
      assert s[|s| - 1] == b[|b| - 1];
      LastIndexOfJoin(a, b', c);
    }
  }

  lemma NoUnderscore(i: int)
    ensures '_' !in IntStr(i)
  {
  }

  lemma SplitJoin(a: string, b: string, c: char)
    ensures (a + [c] + b)[..|a|] == a && (a + [c] + b)[|a| + 1..] == b
  {
  }

  /** Splitting `name_sx_sy` finds the parts back when the numbers hold no
      underscore. */
  lemma ParseJoined(name: string, sx: string, sy: string, x: int, y: int)
    requires '_' !in sx && '_' !in sy
    requires ParseInt(sx) == Some(x) && ParseInt(sy) == Some(y)
    ensures ParseKey(name + "_" + sx + "_" + sy) == Some(KeyParts(name, x, y))
  {
    var rest := name + ['_'] + sx;
    var k := rest + ['_'] + sy;
    assert name + "_" + sx + "_" + sy == k;
    LastIndexOfJoin(rest, sy, '_');
    SplitJoin(rest, sy, '_');
    LastIndexOfJoin(name, sx, '_');
    SplitJoin(name, sx, '_');
  }

  /** A key reads back as the name and origin it was built from. */
  lemma KeyRoundTrip(name: string, x: int, y: int)
    ensures ParseKey(Key(name, x, y)) == Some(KeyParts(name, x, y))
  {
    NoUnderscore(x);
    NoUnderscore(y);
    ParseIntStr(x);
    ParseIntStr(y);
    ParseJoined(name, IntStr(x), IntStr(y), x, y);
  }

  /** Distinct (name, x, y) triples give distinct keys, across tilesets too. */
  lemma KeyInjective(n1: string, x1: int, y1: int, n2: string, x2: int, y2: int)
    ensures Key(n1, x1, y1) == Key(n2, x2, y2) <==> n1 == n2 && x1 == x2 && y1 == y2
  {
    KeyRoundTrip(n1, x1, y1);
    KeyRoundTrip(n2, x2, y2);
  }

  lemma KeysInjective(name: string)
    ensures forall x1, y1, x2, y2 :: Key(name, x1, y1) == Key(name, x2, y2) ==> x1 == x2 && y1 == y2
  {
    forall x1, y1, x2, y2 | Key(name, x1, y1) == Key(name, x2, y2)
      ensures x1 == x2 && y1 == y2
    {
      KeyInjective(name, x1, y1, name, x2, y2);
    }
  }

  // ---------------------------------------------------------------------------
  // Slicing

  /** `(x, y)` is the top-left corner of a tile cut from a `w`×`h` image:
      both are multiples of the tile size inside the image. */
  predicate IsOrigin(x: int, y: int, w: nat, h: nat, size: int) {
    size > 0 && 0 <= x < w && 0 <= y < h && x % size == 0 && y % size == 0
  }

  /** `ceil(w / size) * ceil(h / size)`: partial edge tiles are kept. */
  function TileCount(w: nat, h: nat, size: int): nat {
    if size > 0 then CeilDiv(w, size) * CeilDiv(h, size) else 0
  }

  predicate OriginKey(k: string, name: string, w: nat, h: nat, size: int) {
    match ParseKey(k)
    case Some(p) => p.name == name && k == Key(name, p.x, p.y) && IsOrigin(p.x, p.y, w, h, size)
    case None => false
  }

  /** No two origins share a key. */
  ghost predicate InjectiveKeys(key: (int, int) -> string) {
    forall a, b, c, d :: key(a, b) == key(c, d) ==> a == c && b == d
  }

  lemma PrefixStep(s: seq<int>, i: int)
    requires 0 <= i < |s|
    ensures s[..i + 1] == s[..i] + [s[i]]
  {
  }

  /** One row of the walk: the crop at `(x, y)` for every `x` in `xs`, added
      under `key(x, y)`. */
  method SliceRow(key: (int, int) -> string, xs: seq<int>, y: int, size: int, tiles: map<string, Tile>)
    returns (r: map<string, Tile>)
    requires InjectiveKeys(key)
    requires forall i, j :: 0 <= i < j < |xs| ==> xs[i] < xs[j]
    requires forall x :: key(x, y) !in tiles
    requires forall x, y' :: key(x, y') in tiles ==> tiles[key(x, y')] == Crop(x, y', size)
    ensures forall x, y' :: key(x, y') in r <==> key(x, y') in tiles || (y' == y && x in xs)
    ensures forall x, y' :: key(x, y') in r ==> r[key(x, y')] == Crop(x, y', size)
    ensures forall k :: k in r ==> k in tiles || exists x :: x in xs && k == key(x, y)
    ensures |r| == |tiles| + |xs|
  {
    r := tiles;
    var j := 0;
    while j < |xs|
      invariant 0 <= j <= |xs|
      invariant forall x, y' :: key(x, y') in r <==> key(x, y') in tiles || (y' == y && x in xs[..j])
      invariant forall x, y' :: key(x, y') in r ==> r[key(x, y')] == Crop(x, y', size)
      invariant forall k :: k in r ==> k in tiles || exists x :: x in xs && k == key(x, y)
      invariant |r| == |tiles| + j
    {
      var x := xs[j];
      assert x !in xs[..j];
      assert key(x, y) !in r;
      r := r[key(x, y) := Crop(x, y, size)];
      PrefixStep(xs, j);
      j := j + 1;
    }
    assert xs[..j] == xs;
  }

  /** Adding row `y` to a map holding the rows `ys` gives one holding `ys + [y]`. */
  lemma GridStep(key: (int, int) -> string, xs: seq<int>, ys: seq<int>, y: int,
                 before: map<string, Tile>, after: map<string, Tile>)
    requires |before| == |ys| * |xs| && |after| == |before| + |xs|
    requires forall k :: k in before ==> exists x, y :: x in xs && y in ys && k == key(x, y)
    requires forall k :: k in after ==> k in before || exists x :: x in xs && k == key(x, y)
    ensures |after| == |ys + [y]| * |xs|
    ensures forall k :: k in after ==> exists x, y' :: x in xs && y' in ys + [y] && k == key(x, y')
  {
    RowCount(|ys|, |xs|);
    forall k | k in after
      ensures exists x, y' :: x in xs && y' in ys + [y] && k == key(x, y')
    {
      if k in before {
        var x', y' :| x' in xs && y' in ys && k == key(x', y');
        assert y' in ys + [y];
      } else {
        var x' :| x' in xs && k == key(x', y);
        assert y in ys + [y];
      }
    }
  }

  /** One more row of `n` tiles. */
  lemma RowCount(rows: nat, n: nat)
    ensures (rows + 1) * n == rows * n + n
  {
  }

  /** The grid walk of `load_tileset`: rows of origins top to bottom, each row
      left to right, one crop per origin. */
  method SliceGrid(key: (int, int) -> string, xs: seq<int>, ys: seq<int>, size: int)
    returns (tiles: map<string, Tile>)
    requires InjectiveKeys(key)
    requires forall i, j :: 0 <= i < j < |xs| ==> xs[i] < xs[j]
    requires forall i, j :: 0 <= i < j < |ys| ==> ys[i] < ys[j]
    ensures forall x, y :: key(x, y) in tiles <==> x in xs && y in ys
    ensures forall x, y :: key(x, y) in tiles ==> tiles[key(x, y)] == Crop(x, y, size)
    ensures forall k :: k in tiles ==> exists x, y :: x in xs && y in ys && k == key(x, y)
    ensures |tiles| == |ys| * |xs|
  {
    tiles := map[];
    var i := 0;
    while i < |ys|
      invariant 0 <= i <= |ys|
      invariant forall x, y :: key(x, y) in tiles <==> x in xs && y in ys[..i]
      invariant forall x, y :: key(x, y) in tiles ==> tiles[key(x, y)] == Crop(x, y, size)
      invariant forall k :: k in tiles ==> exists x, y :: x in xs && y in ys[..i] && k == key(x, y)
      invariant |tiles| == i * |xs|
    {
      var y := ys[i];
      assert y !in ys[..i];
      var before := tiles;
      tiles := SliceRow(key, xs, y, size, tiles);
      PrefixStep(ys, i);
      GridStep(key, xs, ys[..i], y, before, tiles);
      i := i + 1;
    }
    assert ys[..i] == ys;
  }

  lemma OriginInRanges(w: nat, h: nat, size: int, x: int, y: int)
    requires size > 0
    ensures x in Range(0, w, size) && y in Range(0, h, size) <==> IsOrigin(x, y, w, h, size)
  {
    RangeMember(0, w, size, x);
    RangeMember(0, h, size, y);
  }

  /** The walk visits `ceil(w / size) * ceil(h / size)` origins. */
  lemma GridCount(w: nat, h: nat, size: int)
    requires size > 0
    ensures |Range(0, h, size)| * |Range(0, w, size)| == TileCount(w, h, size)
  {
    RangeLength(0, w, size);
    RangeLength(0, h, size);
    assert |Range(0, w, size)| == CeilDiv(w, size) by {
      if w == 0 {
        assert (size - 1) / size == 0;
      }
    }
    assert |Range(0, h, size)| == CeilDiv(h, size) by {
      if h == 0 {
        assert (size - 1) / size == 0;
      }
    }
  }

  /** `load_tileset`'s slicing: a zero tile size raises, as `range` does; a
      negative one walks nothing; otherwise one tile per origin, keyed
      `name_x_y`. */
  method SliceTiles(name: string, img: Image, size: int) returns (r: Result<map<string, Tile>, PyError>)
    ensures r.Failure? <==> size == 0
    ensures r.Failure? ==> r.error == RangeStepZero
    ensures r.Success? ==> |r.value| == TileCount(img.width, img.height, size)
    ensures r.Success? ==> forall x, y :: Key(name, x, y) in r.value <==> IsOrigin(x, y, img.width, img.height, size)
    ensures r.Success? ==> forall x, y :: Key(name, x, y) in r.value ==> r.value[Key(name, x, y)] == Crop(x, y, size)
    ensures r.Success? ==> forall k :: k in r.value ==> OriginKey(k, name, img.width, img.height, size)
  {
    if size == 0 {
      return Failure(RangeStepZero);
    }
    var ys := Range(0, img.height, size);
    var xs := Range(0, img.width, size);
    if size < 0 {
      assert ys == [];
      return Success(map[]);
    }
    var key := (x: int, y: int) => Key(name, x, y);
    assert forall x, y :: key(x, y) == Key(name, x, y);
    KeysInjective(name);
    var tiles := SliceGrid(key, xs, ys, size);
    GridCount(img.width, img.height, size);
    forall x, y
      ensures Key(name, x, y) in tiles <==> IsOrigin(x, y, img.width, img.height, size)
    {
      OriginInRanges(img.width, img.height, size, x, y);
    }
    forall k | k in tiles
      ensures OriginKey(k, name, img.width, img.height, size)
    {
      var x, y :| x in xs && y in ys && k == key(x, y);
      OriginInRanges(img.width, img.height, size, x, y);
      KeyRoundTrip(name, x, y);
    }
    return Success(tiles);
  }

  /** Every tile of a tileset sits under the key of its own origin, that
      origin is a multiple of the tile size, and the tile is the tile-sized
      crop there. */
  predicate WellSliced(name: string, ts: Tileset) {
    forall k :: k in ts.tiles ==>
      match ParseKey(k)
      case Some(p) =>
        && p.name == name && k == Key(name, p.x, p.y)
        && ts.tileSize > 0 && p.x >= 0 && p.y >= 0
        && p.x % ts.tileSize == 0 && p.y % ts.tileSize == 0
        && ts.tiles[k] == Crop(p.x, p.y, ts.tileSize)
      case None => false
  }

  predicate Valid(tm: TileManager) {
    forall name :: name in tm.tilesets ==> WellSliced(name, tm.tilesets[name])
  }

  /** `TileManager()`: no tileset loaded yet, so every lookup answers None. */
  function Init(): (tm: TileManager)
    ensures Valid(tm)
    ensures forall ts, x, y :: GetTile(tm, ts, x, y).None?
  {
    TileManager(map[])
  }

  /** `get_tile`: the tile at origin `(x, y)` of tileset `ts`, or None when
      the tileset or the tile is missing. */
  function GetTile(tm: TileManager, ts: string, x: int, y: int): (r: Option<Tile>)
    ensures ts !in tm.tilesets ==> r.None?
    ensures Valid(tm) && r.Some? ==>
              ts in tm.tilesets && tm.tilesets[ts].tileSize > 0 &&
              r.value == Crop(x, y, tm.tilesets[ts].tileSize) &&
              x >= 0 && y >= 0 && x % tm.tilesets[ts].tileSize == 0 && y % tm.tilesets[ts].tileSize == 0
  {
    if ts in tm.tilesets && Key(ts, x, y) in tm.tilesets[ts].tiles then
      KeyRoundTrip(ts, x, y);
      Some(tm.tilesets[ts].tiles[Key(ts, x, y)])
    else None
  }

  lemma SlicedIsWellSliced(name: string, path: string, img: Image, size: int, tiles: map<string, Tile>)
    requires size != 0
    requires forall x, y :: Key(name, x, y) in tiles ==> tiles[Key(name, x, y)] == Crop(x, y, size)
    requires forall k :: k in tiles ==> OriginKey(k, name, img.width, img.height, size)
    ensures WellSliced(name, Tileset(path, size, tiles))
  {
    forall k | k in tiles
      ensures match ParseKey(k)
              case Some(p) =>
                && p.name == name && k == Key(name, p.x, p.y)
                && size > 0 && p.x >= 0 && p.y >= 0
                && p.x % size == 0 && p.y % size == 0
                && tiles[k] == Crop(p.x, p.y, size)
              case None => false
    {
      assert OriginKey(k, name, img.width, img.height, size);
      var p := ParseKey(k).value;
      KeyRoundTrip(name, p.x, p.y);
    }
  }

  /** After slicing `img` into `name`, `get_tile` finds exactly the grid's tiles. */
  lemma LoadedLookup(tm: TileManager, name: string, path: string, img: Image, size: int, tiles: map<string, Tile>)
    requires forall x, y :: Key(name, x, y) in tiles <==> IsOrigin(x, y, img.width, img.height, size)
    requires forall x, y :: Key(name, x, y) in tiles ==> tiles[Key(name, x, y)] == Crop(x, y, size)
    ensures forall x, y ::
              GetTile(TileManager(tm.tilesets[name := Tileset(path, size, tiles)]), name, x, y) ==
                if IsOrigin(x, y, img.width, img.height, size) then Some(Crop(x, y, size)) else None
    ensures forall other, x, y :: other != name ==>
              GetTile(TileManager(tm.tilesets[name := Tileset(path, size, tiles)]), other, x, y) ==
                GetTile(tm, other, x, y)
  {
  }

  /** `load_tileset`: slices the image, records path, tile size and tiles
      under `name` (replacing any earlier entry, leaving other tilesets
      alone) and returns the tiles. Afterwards `get_tile(name, x, y)` finds
      a tile exactly at the origins of the grid. */
  method LoadTileset(tm: TileManager, name: string, path: string, img: Image, size: int)
    returns (r: Result<(TileManager, map<string, Tile>), PyError>)
    ensures r.Failure? <==> size == 0
    ensures r.Failure? ==> r.error == RangeStepZero
    ensures r.Success? ==> r.value.0.tilesets == tm.tilesets[name := Tileset(path, size, r.value.1)]
    ensures r.Success? ==> |r.value.1| == TileCount(img.width, img.height, size)
    ensures r.Success? ==> forall x, y ::
              GetTile(r.value.0, name, x, y) ==
                if IsOrigin(x, y, img.width, img.height, size) then Some(Crop(x, y, size)) else None
    ensures r.Success? ==> forall other, x, y :: other != name ==>
              GetTile(r.value.0, other, x, y) == GetTile(tm, other, x, y)
    ensures r.Success? && Valid(tm) ==> Valid(r.value.0)
  {
    var sliced := SliceTiles(name, img, size);
    if sliced.Failure? {
      return Failure(sliced.error);
    }
    var tiles := sliced.value;
    var tm' := TileManager(tm.tilesets[name := Tileset(path, size, tiles)]);
    SlicedIsWellSliced(name, path, img, size, tiles);
    LoadedLookup(tm, name, path, img, size, tiles);
    return Success((tm', tiles));
  }
}
